=== FILE: README.md ===
# Maze generation and solving, modelled in Dafny

This project models the `Maze` class of a small maze visualiser: a grid of
cells with four wall flags and a visited flag, stored row-major, which is
carved into a maze by a randomised depth-first search and then solved by
Dijkstra's algorithm with every passage of weight 1. Both processes run one
step at a time, and a four-state machine (`GENERATING`, `IDLE`, `SOLVING`,
`SOLVED`) decides which one a step advances.

The model is functional: the maze is an immutable record and every
operation is a pure function returning the next record. It has six modules.

- `Grid` (`grid.dfy`) covers:
  - cells and the direction table;
  - the coordinate/index mapping `index`;
  - neighbours, wall symmetry and passages;
  - walks, connectivity and cycles;
  - counting over the grid.
- `Spanning` (`spanning.dfy`) holds a depth labelling of the passage graph.
  It witnesses that the passages form a tree: connected and acyclic.
- `Carver` (`carver.dfy`) models the depth-first carver:
  - setup;
  - the candidate list;
  - carving and backtracking;
  - the invariant each step keeps;
  - the termination measure;
  - the spanning-tree result.
- `Search` (`search.dfy`) models the solver:
  - the min-queue of `(cost, index)` pairs with lazy deletion;
  - relaxation;
  - the distance and parent invariant;
  - path reconstruction.
- `Shortest` (`shortest.dfy`) proves the solver optimal. No walk through
  open passages from the origin is shorter than the distance recorded for
  a settled cell, so the path found at the destination is a shortest one.
- `Machine` (`machine.dfy`) models the maze record and the state machine.
  It includes `step`, `setupGeneration`/`reset`, `setupDijkstra` and
  `isGenerationDone`, plus two drivers: a generation loop run to
  completion, and a one-cell scenario.

Several choices differ from the source's representation:

- **Random choice.** The random neighbour choice is an argument `k`. It
  indexes the candidate list, which is built in the fixed order of
  directions 0, 1, 2, 3.
- **Unreached distance.** The source's `INT_MAX` is the constructor `Inf`
  of `Search.Dist`.
- **The queue.** It is a sequence from which the least pair is removed.
  Pairs are ordered by cost and then by index, as `std::greater` orders
  them. The least pair is unique as a value, so the heap's internal layout
  does not matter.
- **The depth witness.** The depth labelling used in the spanning-tree
  proof is ghost. It is produced by lemmas and is never part of the state.

## Model

| member | source | states |
|---|---|---|
| Grid.Index | src/main.cpp:59-64 | the result is -1 exactly when `x` or `y` is off the grid; otherwise it lies in `[0, w*h)` |
| Grid.IndexInverts | src/main.cpp:59-64 | an in-grid index maps back to its coordinates as `(i % w, i / w)` |
| Grid.IndexOfCoords | src/main.cpp:123-124 | the coordinates the solver recovers from any cell index are on the grid and index that same cell |
| Grid.Opposite | src/main.cpp:185-205 | the wall cleared on the far side of a carve faces exactly back along the carve direction |
| Grid.NeighborBack | src/main.cpp:126-134 | stepping to a neighbour and back in the opposite direction returns to the start cell |
| Grid.NeighborOfPos | src/main.cpp:170-173 | the neighbour of a coordinate's index is the index of the moved coordinate |
| Grid.LinkedBack | src/main.cpp:185-205 | with symmetric walls every open passage can be walked in both directions |
| Grid.ReversedWalk | src/main.cpp:185-205 | with symmetric walls every passage walk can be followed backwards, cell by cell in reverse order |
| Spanning.ClosedWalkRepeats | src/main.cpp:157-218 | on a depth-labelled grid no closed walk of three or more steps has distinct cells |
| Spanning.TreeReaches | src/main.cpp:157-218 | every visited cell has a passage walk to the origin |
| Spanning.TreeSpans | src/main.cpp:157-218 | a fully visited, depth-labelled grid is connected and acyclic |
| Carver.Setup | src/main.cpp:75-88 | every wall closed, only cell 0 visited, stack `[(0,0)]`, current `(0,0)` |
| Carver.Candidates | src/main.cpp:170-173 | a direction is a candidate exactly when it leads to an unvisited cell on the grid; there are no candidates exactly when every neighbour is visited |
| Carver.CandidatesAscend | src/main.cpp:170-173 | candidates are listed in increasing direction order |
| Carver.Carve | src/main.cpp:181-206 | the old cell is pushed, current moves one step in `d`, the new cell becomes visited, and only wall `d` of the old cell and the opposite wall of the new cell are cleared |
| Carver.Backtrack | src/main.cpp:209-215 | the grid is unchanged; the stack top becomes current |
| Carver.Advance | src/main.cpp:164-215 | with no candidate it backtracks; otherwise it carves towards the `k`-th candidate direction, an unvisited in-grid neighbour |
| Carver.EachCandidateOnce | src/main.cpp:170-179 | every unexplored direction stands at exactly one position of the candidate list, so a uniform draw of the position is a uniform draw of the direction |
| Carver.SetupInvariant | src/main.cpp:75-88 | the setup state satisfies the carver invariant, with one visited cell and no passages |
| Carver.CarveCounts | src/main.cpp:181-206 | a carve adds one visited cell, removes one unvisited cell and opens exactly one passage |
| Carver.CarveKeepsWalls | src/main.cpp:185-205 | a carve keeps the walls symmetric between neighbours and the outer boundary closed |
| Carver.CarveInvariant | src/main.cpp:181-206 | a carve keeps the carver invariant: symmetric and sealed walls, in-grid visited stack and current cell, passages one fewer than visited cells, every visited cell finished or still pending |
| Carver.BacktrackInvariant | src/main.cpp:209-215 | a backtrack from a finished cell keeps the carver invariant |
| Carver.CarveOrBacktrack | src/main.cpp:164-215 | each step either pops the stack into current with the grid unchanged, or moves to a previously unvisited neighbour, pushes the old cell, and adds one visited cell and one passage |
| Carver.AdvanceDecreases | src/main.cpp:157-218 | each step lowers (unvisited cells, stack height) lexicographically, so generation terminates |
| Carver.CarvePassages | src/main.cpp:181-206 | a carve opens exactly the passage between the old and the new cell and keeps every other passage |
| Carver.CarveTree | src/main.cpp:181-206 | a carve extends the depth labelling so that the passages still form a tree |
| Carver.AdvanceTree | src/main.cpp:164-215 | every generation step keeps the passages a tree |
| Carver.EmptyStackCoversGrid | src/main.cpp:157-161 | once the stack is empty every cell of the grid has been visited |
| Carver.EmptyStackSpans | src/main.cpp:157-161 | once the stack is empty, all `w*h` cells are visited and exactly `w*h-1` passages are open, forming a connected acyclic graph |
| Search.Start | src/main.cpp:220-239 | distance 0 at the origin and unreached elsewhere, all parents -1, nothing settled, queue `{(0,0)}`, no path |
| Search.PopMin | src/main.cpp:46-48 | the removed pair is in the queue and least in (cost, index) order, and the rest is the queue minus that one pair |
| Search.RelaxEdge | src/main.cpp:129-145 | relaxing one open wall leaves the neighbour no farther than one past the cell and never raises a distance. A cell whose distance drops gets the cell as parent, lies through an open wall, and is queued at its new distance. Other parents are kept, the old queue is kept as a prefix, and the one entry appended is that of the improved cell |
| Search.RelaxFrom | src/main.cpp:129-145 | after relaxing all four walls, every open neighbour is no farther than one past the cell. Only cells improved from it, through an open wall, change distance or parent. The old queue is kept as a prefix. After it comes one entry per changed cell, at its new distance, and nothing else: the appended entries name distinct cells |
| Search.ImprovedTwice | src/main.cpp:129-145 | two rounds of relaxation from the same cell compose: every cell whose distance changed overall was improved from that cell, and a cell improved in the first round is left alone by the second |
| Search.RequeuedTwice | src/main.cpp:129-145 | two rounds of relaxation compose when the second leaves the first round's cells alone: the old queue stays a prefix, every changed cell is appended at its final distance, and the appended entries name distinct changed cells |
| Search.RequeuedMembers | src/main.cpp:129-145 | after relaxation every old entry is still queued, every changed cell is queued at its new distance, and every entry not queued before belongs to a changed cell at that distance |
| Search.Settle | src/main.cpp:114-145 | settling marks exactly that cell settled and ends the search exactly when the cell is the destination. It never raises a distance and leaves the path unchanged unless the search ends |
| Search.StepSearch | src/main.cpp:101-146 | a solver step ends the search exactly when the queue is empty or the least pair is a current entry for the destination. It never raises a distance, and unless it ends the search it leaves the path unchanged |
| Search.StartInvariant | src/main.cpp:220-239 | the initial solver state satisfies the solver invariant |
| Search.RelaxEdgeKeeps | src/main.cpp:136-143 | relaxing an open wall keeps the solver invariant: every updated cell gets the settled cell as parent, through an open passage, at one more than its distance |
| Search.RelaxFromKeeps | src/main.cpp:129-145 | relaxing all open walls of a settled cell keeps the solver invariant |
| Search.DropKeeps | src/main.cpp:107-112 | removing queue entries keeps the solver invariant |
| Search.SettleKeeps | src/main.cpp:114-145 | settling the least queued cell keeps the solver invariant |
| Search.MarkKeeps | src/main.cpp:114 | marking a cell settled keeps the solver invariant when the cell is no farther than any queued cost |
| Search.StepKeeps | src/main.cpp:101-146 | every solver step keeps the solver invariant: queued costs at least the recorded distance, parents one step nearer through open walls, settled cells no farther than any queued entry |
| Search.StaleDrops | src/main.cpp:107-112 | popping a pair whose cost exceeds the recorded distance removes exactly that pair and changes nothing else |
| Search.EmptyQueueEnds | src/main.cpp:102-104 | an empty queue ends the search and changes nothing |
| Search.PathShape | src/main.cpp:148-154 | following parents from a reached cell gives a passage walk to the origin, one unit of distance per step |
| Search.DistBelowSize | src/main.cpp:148-154 | every recorded distance is less than the number of cells |
| Search.ParentChainFromCells | src/main.cpp:148-154 | one unit of fuel per cell is enough to follow the parent chain all the way to the origin |
| Search.ChainEnds | src/main.cpp:148-154 | the parent walk from a reached cell is non-empty and ends at the origin, whose parent is -1 |
| Search.PathFromFollows | src/main.cpp:150-153 | each element of a parent walk is followed by its parent |
| Search.Reconstruct | src/main.cpp:148-154 | the unbounded reconstruction loop terminates and returns the parent chain from the end cell back to the origin |
| Search.ReachDestination | src/main.cpp:116-119 | popping the destination ends the search and appends a path that starts at the destination, ends at 0, steps through open passages and has `dist[dest]+1` cells |
| Shortest.StartOptimal | src/main.cpp:220-239 | the initial solver state satisfies the optimality invariant: settled cells relaxed, reached unsettled cells queued, settled distances no longer than any walk, destination unsettled |
| Shortest.ReachesIffWalkTo | src/main.cpp:126-134 | on a symmetric grid a cell has a passage walk to the origin exactly when the origin has one to it |
| Shortest.ConnectedWalks | src/main.cpp:157-218 | in a connected, symmetric maze a walk leads from the origin to every cell |
| Shortest.WalkInRange | src/main.cpp:126-134 | every cell of a passage walk to a grid cell lies on the grid |
| Shortest.PrefixWalk | src/main.cpp:126-134 | every non-empty prefix of a walk from the origin is a walk to its last cell |
| Shortest.PopIsShortest | src/main.cpp:107-119 | the cost of the least queued entry, when current, is less than the number of cells of any walk from the origin to its cell |
| Shortest.StillQueued | src/main.cpp:107-109 | popping the least pair keeps every other queued pair |
| Shortest.StaleOptimal | src/main.cpp:107-112 | dropping a stale entry keeps the optimality invariant |
| Shortest.DestinationShortest | src/main.cpp:114-119 | settling the destination keeps the distances, and its distance is less than the cell count of any walk to it |
| Shortest.SettleEffect | src/main.cpp:114-145 | settling a current non-destination cell marks it settled and keeps the distances of settled cells. It relaxes every open wall and keeps the rest of the queue as a prefix. After it comes exactly one entry per improved cell, at its new distance, and nothing else |
| Shortest.SettleOptimal | src/main.cpp:114-145 | settling a current non-destination cell keeps the optimality invariant |
| Shortest.SettleRelaxed | src/main.cpp:126-145 | after settling, every settled cell's open neighbours are no farther than one past it |
| Shortest.SettleQueued | src/main.cpp:107-145 | after settling, every reached unsettled cell is queued at its distance |
| Shortest.RequeueQueued | src/main.cpp:107-145 | popping the least pair, settling its cell and requeueing the improved cells keeps every reached unsettled cell queued |
| Shortest.SettleShortest | src/main.cpp:114-145 | after settling, no walk to a settled cell is shorter than its distance |
| Shortest.StepOptimal | src/main.cpp:101-146 | every solver step that does not end the search keeps the optimality invariant. One that ends it at the destination has recorded a distance less than the cell count of any walk there. One that ends it on an empty queue leaves no walk from the origin to the destination |
| Shortest.WalkSettled | src/main.cpp:102-104 | once the queue is empty, every cell a walk from the origin reaches has been settled |
| Shortest.ExhaustedUnreachable | src/main.cpp:102-104 | a search whose queue runs empty before the destination is settled leaves no walk from the origin to the destination |
| Machine.NewMaze | src/main.cpp:70-73 | a new maze has `w*h` default cells, an empty stack, an empty queue and path, and is idle |
| Machine.SetupGeneration | src/main.cpp:75-88 | every wall closed, only cell 0 visited, stack `[(0,0)]`, current `(0,0)`, path cleared, state `GENERATING`; queue, distances, parents and settled flags kept |
| Machine.Reset | src/main.cpp:361-363 | resetting is setting up generation: every wall closed, only cell 0 visited, stack `[(0,0)]`, current `(0,0)`, path cleared, state `GENERATING`, and the other solver data kept |
| Machine.IsGenerationDone | src/main.cpp:357-359 | the test `state == IDLE`; `Machine.GenerationEnds` and `Machine.GenerationDoneGate` state what it means |
| Machine.GenerationDoneGate | src/main.cpp:357-359 | once generation is done a step changes nothing and the solver can be started; while generating it is not done and starting the solver is refused |
| Machine.SetupGenerationIdempotent | src/main.cpp:361-363 | setting up generation, or resetting, twice is the same as doing it once |
| Machine.StepGeneration | src/main.cpp:157-218 | with an empty stack only the state changes, to `IDLE`; otherwise the state stays `GENERATING` and the solver data is untouched |
| Machine.StepDijkstra | src/main.cpp:101-146 | the grid is untouched. The state becomes `SOLVED` exactly when it already was, the queue is empty, or the least queued pair is a current entry for the destination; otherwise it stays |
| Machine.Step | src/main.cpp:91-98 | `IDLE` and `SOLVED` are left unchanged; generating steps stay within `GENERATING`/`IDLE` without touching the solver; solving steps stay within `SOLVING`/`SOLVED` without touching the grid |
| Machine.SetupDijkstra | src/main.cpp:220-239 | refused while generating; otherwise only the solver data and state change, to the initial search state and `SOLVING` |
| Machine.NewMazeGood | src/main.cpp:70-73 | a new maze satisfies the machine invariant |
| Machine.SetupGenerationGood | src/main.cpp:75-88 | setting up generation from any maze yields a state that satisfies the machine invariant |
| Machine.SetupDijkstraGood | src/main.cpp:220-239 | starting the solver keeps the machine invariant |
| Machine.SolveStepGood | src/main.cpp:101-154 | a solver step keeps the machine invariant. That includes the optimality invariant while solving; an empty path only when no walk reaches the destination; and the shape and minimality of any path found |
| Machine.SolveFoundGood | src/main.cpp:114-119 | a solver step that settles the destination keeps the machine invariant: the path is a parent chain from the destination no longer than any walk to it |
| Machine.GenerationStepGood | src/main.cpp:157-218 | a generation step keeps the machine invariant |
| Machine.StepGood | src/main.cpp:91-98 | every step keeps the machine invariant |
| Machine.StepKeepsSymmetric | src/main.cpp:91-98 | from any reachable maze, no step breaks the symmetry of walls between neighbouring cells or opens the outer boundary |
| Machine.GenerationEnds | src/main.cpp:157-161 | generation is done after a step exactly when the stack was empty. Then every cell is visited, the walls are symmetric and closed on the boundary, and the `w*h-1` passages form a spanning tree |
| Machine.SolveStep | src/main.cpp:101-120 | a solving step reaches `SOLVED` exactly when the queue is empty or the destination is settled, and otherwise stays `SOLVING`. An empty queue gives an empty path, and then no walk from the origin reaches the destination. Settling the destination always yields a path: it starts at the destination, ends at 0, follows open passages, and has `dist[dest]+1` cells, no more than any walk from the origin to the destination |
| Machine.DriverStep | src/main.cpp:157-218 | each generation step of the driver keeps its step count in line with the visited cells and stack height, and lowers the termination measure |
| Machine.DriverAdvance | src/main.cpp:164-215 | a step with a non-empty stack keeps the step count in line and lowers (unvisited cells, stack height) |
| Machine.DriverFinish | src/main.cpp:157-161 | the final step comes after exactly `2*w*h-1` earlier steps and leaves a spanning tree |
| Machine.Generate | src/main.cpp:157-218 | generation from setup, for any sequence of picks, ends in `IDLE` after exactly `2*w*h` steps. All cells are visited, the walls are symmetric and closed on the boundary, and `w*h-1` passages form a connected acyclic graph |
| Machine.OneCell | src/main.cpp:157-161 | a one-cell maze needs two generation steps (a pop, then `IDLE`) and then solves in one step with path `[0]` |

## Left out

- `Maze::render` (src/main.cpp:241-354) is not modelled: it is floating-point geometry and immediate-mode OpenGL drawing.
- The shader sources, `createShaderProgram` and `main` (src/main.cpp:368-503) are not modelled: they are window, GPU and input handling. `main` only calls `setupDijkstra` once `isGenerationDone()` holds; the model follows the class's own guard, which refuses only while generating.
- The root `main.cpp` is not part of this model; it is window boilerplate.
- The random number generator, its seeding from the clock, and the uniform draw (src/main.cpp:72, 178-179) are replaced by the pick `k`. `Machine.Generate` takes an arbitrary function of the step number as its source of picks.
- The binary-heap layout of `std::priority_queue` is not modelled; only which pair is removed matters.
- Machine integers are unbounded. `w*h` and the distances are assumed to fit in `int`, as they do for any grid the program can draw.
- Search.RelaxEdge: the successor of the unreached distance is taken to be unreached, where the source would overflow `INT_MAX + 1`. The solver invariant shows that a popped, current entry always has a finite distance, so this case never arises.
- Search.PathFrom follows at most one parent per cell. `Search.Reconstruct` shows that the source's unbounded loop returns the same list whenever the solver invariant holds.
- Non-positive dimensions are excluded: the constructor does not check them. Every operation that builds or steps a maze, a carving or a search requires `w > 0 && h > 0`, directly or through `Grid.Shape`. The pure queries `Grid.Index`, `Carver.InBounds`, `Search.Destination` and `Machine.IsGenerationDone` need no such bound.
- The constructor leaves the current coordinates uninitialised. The model sets them to `(0,0)`, which nothing reads before `setupGeneration` assigns them.

=== FILE: carver.dfy ===
/**
 * The randomized depth-first carver ("recursive backtracker"): a current
 * cell, an explicit LIFO stack of coordinates, and the grid it carves.
 * The random pick is an explicit index into the candidate list.
 */
module Carver {
  import opened Grid
  import opened Spanning

  datatype Carving = Carving(grid: seq<Cell>, stack: seq<Pos>, current: Pos)

  const Origin: Pos := Pos(0, 0)

  predicate InBounds(w: int, h: int, p: Pos) {
    0 <= p.x < w && 0 <= p.y < h
  }

  /** The shape the carving code relies on: every coordinate it holds is on the grid. */
  predicate Wf(w: int, h: int, c: Carving) {
    && Shape(w, h, c.grid)
    && InBounds(w, h, c.current)
    && forall k | 0 <= k < |c.stack| :: InBounds(w, h, c.stack[k])
  }

  /** Direction `d` from cell `i` leads to an in-grid cell not yet visited. */
  predicate Unexplored(w: int, h: int, g: seq<Cell>, i: int, d: Dir)
    requires Shape(w, h, g)
  {
    Neighbor(w, h, i, d) != -1 && !g[Neighbor(w, h, i, d)].visited
  }

  /**
   * Generation setup: all walls closed, only the origin visited, the
   * origin on the stack and current.
   */
  function Setup(w: int, h: int): (c: Carving)
    requires w > 0 && h > 0
    ensures Wf(w, h, c)
    ensures forall i | 0 <= i < |c.grid| :: c.grid[i].walls == Closed && (c.grid[i].visited <==> i == 0)
    ensures c.stack == [Origin] && c.current == Origin
  {
    Carving(seq(w * h, _ => Blank)[0 := Cell(true, Closed)], [Origin], Origin)
  }

  /**
   * The directions of the unvisited in-grid neighbours of `p`, tested in
   * the fixed order 0, 1, 2, 3.
   */
  function Candidates(w: int, h: int, g: seq<Cell>, p: Pos): (r: seq<Dir>)
    requires Shape(w, h, g) && InBounds(w, h, p)
    ensures forall d: Dir :: d in r <==> Unexplored(w, h, g, IndexOf(w, h, p), d)
    ensures |r| == 0 <==> Finished(w, h, g, IndexOf(w, h, p))
  {
    var x, y := p.x, p.y;
    var up: seq<Dir> := if y < h - 1 && !g[Index(w, h, x, y + 1)].visited then [0] else [];
    var right: seq<Dir> := if x < w - 1 && !g[Index(w, h, x + 1, y)].visited then [1] else [];
    var down: seq<Dir> := if y > 0 && !g[Index(w, h, x, y - 1)].visited then [2] else [];
    var left: seq<Dir> := if x > 0 && !g[Index(w, h, x - 1, y)].visited then [3] else [];
    var i := IndexOf(w, h, p);
    NeighborsOfPos(w, h, p);
    assert |up| == 1 <==> Unexplored(w, h, g, i, 0);
    assert |right| == 1 <==> Unexplored(w, h, g, i, 1);
    assert |down| == 1 <==> Unexplored(w, h, g, i, 2);
    assert |left| == 1 <==> Unexplored(w, h, g, i, 3);
    FinishedIffNoneUnexplored(w, h, g, i);
    up + right + down + left
  }

  /** The candidate list is built in the fixed direction order, so it ascends. */
  lemma CandidatesAscend(w: int, h: int, g: seq<Cell>, p: Pos)
    requires Shape(w, h, g) && InBounds(w, h, p)
    ensures var r := Candidates(w, h, g, p); forall a, b | 0 <= a < b < |r| :: r[a] < r[b]
  {
  }

  /**
   * Every unexplored direction is chosen by exactly one pick: it stands at
   * exactly one position of the candidate list, so a uniform draw over the
   * positions is a uniform draw over the unexplored directions.
   */
  lemma EachCandidateOnce(w: int, h: int, g: seq<Cell>, p: Pos, d: Dir)
    requires Shape(w, h, g) && InBounds(w, h, p) && Unexplored(w, h, g, IndexOf(w, h, p), d)
    ensures var r := Candidates(w, h, g, p);
      exists k | 0 <= k < |r| :: r[k] == d && forall j | 0 <= j < |r| && r[j] == d :: j == k
  {
    var r := Candidates(w, h, g, p);
    CandidatesAscend(w, h, g, p);
    assert d in r;
    var k :| 0 <= k < |r| && r[k] == d;
    assert forall j | 0 <= j < |r| && r[j] == d :: j == k;
  }

  /** The four neighbours of an in-grid coordinate, by index. */
  lemma NeighborsOfPos(w: int, h: int, p: Pos)
    requires w > 0 && InBounds(w, h, p)
    ensures Neighbor(w, h, IndexOf(w, h, p), 0) == Index(w, h, p.x, p.y + 1)
    ensures Neighbor(w, h, IndexOf(w, h, p), 1) == Index(w, h, p.x + 1, p.y)
    ensures Neighbor(w, h, IndexOf(w, h, p), 2) == Index(w, h, p.x, p.y - 1)
    ensures Neighbor(w, h, IndexOf(w, h, p), 3) == Index(w, h, p.x - 1, p.y)
  {
    IndexInverts(w, h, p.x, p.y);
  }

  lemma FinishedIffNoneUnexplored(w: int, h: int, g: seq<Cell>, i: int)
    requires Shape(w, h, g)
    ensures Finished(w, h, g, i) <==> forall d: Dir :: !Unexplored(w, h, g, i, d)
  {
    if forall d: Dir :: !Unexplored(w, h, g, i, d) {
      forall d: Dir
        ensures Neighbor(w, h, i, d) != -1 ==> g[Neighbor(w, h, i, d)].visited
      {
        assert !Unexplored(w, h, g, i, d);
      }
    }
  }

  /**
   * One carve in direction `d`: open the wall of the current cell towards
   * the neighbour and the neighbour's wall back, mark the neighbour
   * visited, push the old current cell and move onto the neighbour.
   */
  function Carve(w: int, h: int, c: Carving, d: Dir): (c': Carving)
    requires Wf(w, h, c) && Unexplored(w, h, c.grid, IndexOf(w, h, c.current), d)
    ensures Wf(w, h, c')
    ensures c'.current == Move(c.current, d) && c'.stack == c.stack + [c.current]
    ensures |c'.grid| == |c.grid|
    ensures var i := IndexOf(w, h, c.current); var j := Neighbor(w, h, i, d);
      && j == IndexOf(w, h, c'.current)
      && (forall a | 0 <= a < |c.grid| :: c'.grid[a].visited == (a == j || c.grid[a].visited))
      && (forall a, e: Dir | 0 <= a < |c.grid| ::
            c'.grid[a].walls[e] == if (a == i && e == d) || (a == j && e == Opposite(d)) then false else c.grid[a].walls[e])
  {
    var i := IndexOf(w, h, c.current);
    var next := Move(c.current, d);
    NeighborOfPos(w, h, c.current, d);
    NeighborDiffers(w, h, i, d);
    var j := IndexOf(w, h, next);
    var g1 := c.grid[i := c.grid[i].(walls := c.grid[i].walls[d := false])];
    var g2 := g1[j := g1[j].(visited := true, walls := g1[j].walls[Opposite(d) := false])];
    Carving(g2, c.stack + [c.current], next)
  }

  /** Pop the stack into the current cell; the grid is left alone. */
  function Backtrack(c: Carving): (c': Carving)
    requires |c.stack| > 0
    ensures c'.grid == c.grid && c'.stack + [c'.current] == c.stack
  {
    Carving(c.grid, c.stack[..|c.stack| - 1], c.stack[|c.stack| - 1])
  }

  /** A pick `k` the random source could return for state `c`. */
  predicate ValidPick(w: int, h: int, c: Carving, k: nat)
    requires Wf(w, h, c)
  {
    var n := |Candidates(w, h, c.grid, c.current)|;
    n == 0 || k < n
  }

  /**
   * One generation step with a non-empty stack: carve towards the `k`-th
   * candidate when there is one, otherwise backtrack.
   */
  function Advance(w: int, h: int, c: Carving, k: nat): (c': Carving)
    requires Wf(w, h, c) && |c.stack| > 0 && ValidPick(w, h, c, k)
    ensures Wf(w, h, c')
    ensures Finished(w, h, c.grid, IndexOf(w, h, c.current)) ==>
      c'.grid == c.grid && c'.stack + [c'.current] == c.stack
    ensures !Finished(w, h, c.grid, IndexOf(w, h, c.current)) ==>
      exists d: Dir :: Unexplored(w, h, c.grid, IndexOf(w, h, c.current), d) && c' == Carve(w, h, c, d)
    ensures !Finished(w, h, c.grid, IndexOf(w, h, c.current)) ==>
      c' == Carve(w, h, c, Candidates(w, h, c.grid, c.current)[k])
  {
    var cands := Candidates(w, h, c.grid, c.current);
    if |cands| > 0 then
      var d := cands[k];
      assert d in cands;
      assert Unexplored(w, h, c.grid, IndexOf(w, h, c.current), d);
      Carve(w, h, c, d)
    else
      Backtrack(c)
  }

  // The invariant kept by every generation step.

  /** The cell `i` appears somewhere on the stack. */
  predicate OnStack(w: int, h: int, stack: seq<Pos>, i: int) {
    exists k | 0 <= k < |stack| :: IndexOf(w, h, stack[k]) == i
  }

  /** Every visited cell is finished, current, or still waiting on the stack. */
  predicate Frontier(w: int, h: int, c: Carving)
    requires Shape(w, h, c.grid)
  {
    forall i | 0 <= i < |c.grid| && c.grid[i].visited ::
      Finished(w, h, c.grid, i) || IndexOf(w, h, c.current) == i || OnStack(w, h, c.stack, i)
  }

  /**
   * The origin is pushed at setup and again by the first carve, so the two
   * bottom entries are the origin; once the stack is empty the current
   * cell is finished.
   */
  predicate StackShape(w: int, h: int, c: Carving)
    requires Wf(w, h, c)
  {
    && (|c.stack| >= 1 ==> c.stack[0] == Origin)
    && (|c.stack| >= 2 ==> c.stack[1] == Origin)
    && (|c.stack| == 1 ==> c.current == Origin)
    && (|c.stack| == 0 ==> Finished(w, h, c.grid, IndexOf(w, h, c.current)))
  }

  predicate Invariant(w: int, h: int, c: Carving) {
    && Wf(w, h, c)
    && Symmetric(w, h, c.grid) && Enclosed(w, h, c.grid) && Sealed(c.grid)
    && c.grid[0].visited
    && c.grid[IndexOf(w, h, c.current)].visited
    && (forall k | 0 <= k < |c.stack| :: c.grid[IndexOf(w, h, c.stack[k])].visited)
    && PassageCount(c.grid) + 1 == VisitedCount(c.grid)
    && Frontier(w, h, c)
    && StackShape(w, h, c)
  }

  /** Setup establishes the invariant, with every depth 0 as tree witness. */
  lemma SetupInvariant(w: int, h: int)
    requires w > 0 && h > 0
    ensures Invariant(w, h, Setup(w, h))
    ensures Tree(w, h, Setup(w, h).grid, seq(w * h, _ => 0))
    ensures VisitedCount(Setup(w, h).grid) == 1 && PassageCount(Setup(w, h).grid) == 0
  {
    var c := Setup(w, h);
    SetupCounts(w, h);
    SetupWalls(w, h);
    assert IndexOf(w, h, c.current) == 0;
    assert Frontier(w, h, c);
  }

  lemma SetupWalls(w: int, h: int)
    requires w > 0 && h > 0
    ensures var g := Setup(w, h).grid;
      Symmetric(w, h, g) && Enclosed(w, h, g) && Sealed(g) && Tree(w, h, g, seq(w * h, _ => 0))
  {
    var g := Setup(w, h).grid;
    assert forall i, d: Dir | 0 <= i < |g| :: !Opens(w, h, g, i, d);
  }

  lemma SetupCounts(w: int, h: int)
    requires w > 0 && h > 0
    ensures VisitedCount(Setup(w, h).grid) == 1 && PassageCount(Setup(w, h).grid) == 0
  {
    var blank := seq(w * h, _ => Blank);
    TallyNone(blank, VisitMark);
    TallyNone(blank, PassageMark);
    TallyUpdate(blank, 0, Cell(true, Closed), VisitMark);
    TallyUpdate(blank, 0, Cell(true, Closed), PassageMark);
  }

  /** Carving opens exactly one passage and visits exactly one new cell. */
  lemma CarveCounts(w: int, h: int, c: Carving, d: Dir)
    requires Wf(w, h, c) && Symmetric(w, h, c.grid) && Sealed(c.grid)
    requires Unexplored(w, h, c.grid, IndexOf(w, h, c.current), d)
    ensures VisitedCount(Carve(w, h, c, d).grid) == VisitedCount(c.grid) + 1
    ensures UnvisitedCount(Carve(w, h, c, d).grid) + 1 == UnvisitedCount(c.grid)
    ensures PassageCount(Carve(w, h, c, d).grid) == PassageCount(c.grid) + 1
  {
    var g := c.grid;
    var i := IndexOf(w, h, c.current);
    var j := Neighbor(w, h, i, d);
    NeighborOfPos(w, h, c.current, d);
    NeighborDiffers(w, h, i, d);
    assert g[j].walls == Closed;
    assert g[i].walls[d];
    var g1 := g[i := g[i].(walls := g[i].walls[d := false])];
    var g2 := g1[j := g1[j].(visited := true, walls := g1[j].walls[Opposite(d) := false])];
    assert Carve(w, h, c, d).grid == g2;
    TallyUpdate(g, i, g1[i], VisitMark);
    TallyUpdate(g1, j, g2[j], VisitMark);
    TallyUpdate(g, i, g1[i], UnvisitMark);
    TallyUpdate(g1, j, g2[j], UnvisitMark);
    TallyUpdate(g, i, g1[i], PassageMark);
    TallyUpdate(g1, j, g2[j], PassageMark);
    assert PassageMark(g1[i]) + PassageMark(g2[j]) == PassageMark(g[i]) + PassageMark(g1[j]) + 1;
  }

  /** Opening the wall pair between a cell and its neighbour keeps symmetry and the boundary. */
  lemma CarveKeepsWalls(w: int, h: int, c: Carving, d: Dir)
    requires Wf(w, h, c) && Symmetric(w, h, c.grid) && Enclosed(w, h, c.grid)
    requires Unexplored(w, h, c.grid, IndexOf(w, h, c.current), d)
    ensures Symmetric(w, h, Carve(w, h, c, d).grid) && Enclosed(w, h, Carve(w, h, c, d).grid)
  {
    var g := c.grid;
    var g' := Carve(w, h, c, d).grid;
    var i := IndexOf(w, h, c.current);
    var j := Neighbor(w, h, i, d);
    NeighborBack(w, h, i, d);
    OppositeInvolutive(d);
    forall a, e: Dir | 0 <= a < |g'| && Neighbor(w, h, a, e) != -1
      ensures g'[a].walls[e] == g'[Neighbor(w, h, a, e)].walls[Opposite(e)]
    {
      var b := Neighbor(w, h, a, e);
      NeighborBack(w, h, a, e);
      OppositeInvolutive(e);
      if (a == i && e == d) || (a == j && e == Opposite(d)) {
      } else {
        assert !((b == i && Opposite(e) == d) || (b == j && Opposite(e) == Opposite(d)));
      }
    }
  }

  /** A carve preserves the invariant. */
  lemma CarveInvariant(w: int, h: int, c: Carving, d: Dir)
    requires Invariant(w, h, c) && |c.stack| > 0
    requires Unexplored(w, h, c.grid, IndexOf(w, h, c.current), d)
    ensures Invariant(w, h, Carve(w, h, c, d))
  {
    var c' := Carve(w, h, c, d);
    var i := IndexOf(w, h, c.current);
    var j := Neighbor(w, h, i, d);
    CarveCounts(w, h, c, d);
    CarveKeepsWalls(w, h, c, d);
    NeighborDiffers(w, h, i, d);
    assert Sealed(c'.grid);
    assert forall k | 0 <= k < |c'.stack| :: c'.grid[IndexOf(w, h, c'.stack[k])].visited by {
      forall k | 0 <= k < |c'.stack|
        ensures c'.grid[IndexOf(w, h, c'.stack[k])].visited
      {
        if k < |c.stack| {
          assert c'.stack[k] == c.stack[k];
        }
      }
    }
    forall a | 0 <= a < |c'.grid| && c'.grid[a].visited
      ensures Finished(w, h, c'.grid, a) || IndexOf(w, h, c'.current) == a || OnStack(w, h, c'.stack, a)
    {
      if a != j {
        assert c.grid[a].visited;
        if Finished(w, h, c.grid, a) {
        } else if i == a {
          assert IndexOf(w, h, c'.stack[|c.stack|]) == a;
        } else {
          var k :| 0 <= k < |c.stack| && IndexOf(w, h, c.stack[k]) == a;
          assert c'.stack[k] == c.stack[k];
        }
      }
    }
  }

  /** A backtrack preserves the invariant. */
  lemma BacktrackInvariant(w: int, h: int, c: Carving)
    requires Invariant(w, h, c) && |c.stack| > 0
    requires Finished(w, h, c.grid, IndexOf(w, h, c.current))
    ensures Invariant(w, h, Backtrack(c))
  {
    var c' := Backtrack(c);
    var n := |c.stack| - 1;
    assert forall k | 0 <= k < n :: c'.stack[k] == c.stack[k];
    forall a | 0 <= a < |c'.grid| && c'.grid[a].visited
      ensures Finished(w, h, c'.grid, a) || IndexOf(w, h, c'.current) == a || OnStack(w, h, c'.stack, a)
    {
      if !Finished(w, h, c.grid, a) && IndexOf(w, h, c.current) != a {
        var k :| 0 <= k < |c.stack| && IndexOf(w, h, c.stack[k]) == a;
        if k < n {
          assert IndexOf(w, h, c'.stack[k]) == a;
        }
      }
    }
  }

  /**
   * Each generation step with a non-empty stack either carves or
   * backtracks. A carve moves to an unvisited in-grid neighbour, marks it
   * visited, opens exactly one passage and pushes the old cell; a
   * backtrack pops the stack into the current cell and leaves the grid
   * alone. Either way the invariant is kept.
   */
  lemma CarveOrBacktrack(w: int, h: int, c: Carving, k: nat)
    requires Invariant(w, h, c) && |c.stack| > 0 && ValidPick(w, h, c, k)
    ensures Invariant(w, h, Advance(w, h, c, k))
    ensures var c' := Advance(w, h, c, k);
      if Finished(w, h, c.grid, IndexOf(w, h, c.current)) then
        c'.grid == c.grid && c'.stack == c.stack[..|c.stack| - 1] && c'.current == c.stack[|c.stack| - 1]
      else
        && (exists d: Dir :: Unexplored(w, h, c.grid, IndexOf(w, h, c.current), d) && c'.current == Move(c.current, d))
        && !c.grid[IndexOf(w, h, c'.current)].visited
        && c'.stack == c.stack + [c.current]
        && VisitedCount(c'.grid) == VisitedCount(c.grid) + 1
        && PassageCount(c'.grid) == PassageCount(c.grid) + 1
  {
    var c' := Advance(w, h, c, k);
    if Finished(w, h, c.grid, IndexOf(w, h, c.current)) {
      BacktrackInvariant(w, h, c);
      assert c'.stack == c.stack[..|c.stack| - 1];
    } else {
      var d: Dir :| Unexplored(w, h, c.grid, IndexOf(w, h, c.current), d) && c' == Carve(w, h, c, d);
      CarveInvariant(w, h, c, d);
      CarveCounts(w, h, c, d);
    }
  }

  /**
   * Termination measure: every step with a non-empty stack lowers the
   * pair (unvisited cells, stack height) lexicographically.
   */
  lemma AdvanceDecreases(w: int, h: int, c: Carving, k: nat)
    requires Invariant(w, h, c) && |c.stack| > 0 && ValidPick(w, h, c, k)
    ensures var c' := Advance(w, h, c, k);
      || UnvisitedCount(c'.grid) < UnvisitedCount(c.grid)
      || (UnvisitedCount(c'.grid) == UnvisitedCount(c.grid) && |c'.stack| < |c.stack|)
  {
    if !Finished(w, h, c.grid, IndexOf(w, h, c.current)) {
      var d := Candidates(w, h, c.grid, c.current)[k];
      assert d in Candidates(w, h, c.grid, c.current);
      CarveCounts(w, h, c, d);
    }
  }

  /**
   * In passage terms a carve opens exactly the passage between the current
   * cell and the new cell, in both directions; every passage open before
   * stays open and none of them touches the new cell.
   */
  lemma CarvePassages(w: int, h: int, c: Carving, d: Dir)
    requires Wf(w, h, c) && Symmetric(w, h, c.grid) && Sealed(c.grid)
    requires Unexplored(w, h, c.grid, IndexOf(w, h, c.current), d)
    ensures var g, g' := c.grid, Carve(w, h, c, d).grid;
      var i := IndexOf(w, h, c.current); var j := Neighbor(w, h, i, d);
      && Opens(w, h, g', i, d) && !Opens(w, h, g, i, d)
      && Neighbor(w, h, j, Opposite(d)) == i && Opens(w, h, g', j, Opposite(d))
      && (forall e: Dir :: Opens(w, h, g', j, e) ==> e == Opposite(d))
      && (forall a, e: Dir | 0 <= a < |g| && Opens(w, h, g, a, e) ::
            a != j && Neighbor(w, h, a, e) != j && Opens(w, h, g', a, e))
      && (forall a, e: Dir | 0 <= a < |g| && Opens(w, h, g', a, e) ::
            (a == i && e == d) || (a == j && e == Opposite(d)) || Opens(w, h, g, a, e))
  {
    var g, g' := c.grid, Carve(w, h, c, d).grid;
    var i := IndexOf(w, h, c.current);
    var j := Neighbor(w, h, i, d);
    NeighborBack(w, h, i, d);
    assert g[j].walls == Closed;
    forall a, e: Dir | 0 <= a < |g| && Opens(w, h, g, a, e)
      ensures a != j && Neighbor(w, h, a, e) != j && Opens(w, h, g', a, e)
    {
      assert g[a].walls[e] == g[Neighbor(w, h, a, e)].walls[Opposite(e)];
    }
  }

  /** Carving keeps the depth labelling a tree witness; the new cell hangs one below the old current. */
  lemma CarveTree(w: int, h: int, c: Carving, d: Dir, depth: seq<nat>) returns (depth': seq<nat>)
    requires Invariant(w, h, c) && Tree(w, h, c.grid, depth)
    requires Unexplored(w, h, c.grid, IndexOf(w, h, c.current), d)
    ensures Tree(w, h, Carve(w, h, c, d).grid, depth')
  {
    var g := c.grid;
    var g' := Carve(w, h, c, d).grid;
    var i := IndexOf(w, h, c.current);
    var j := Neighbor(w, h, i, d);
    var o := Opposite(d);
    CarvePassages(w, h, c, d);
    depth' := depth[j := depth[i] + 1];
    assert j != 0;
    forall a, e: Dir | 0 <= a < |g'| && Opens(w, h, g', a, e)
      ensures depth'[Neighbor(w, h, a, e)] == depth'[a] + 1 || depth'[Neighbor(w, h, a, e)] + 1 == depth'[a]
    {
    }
    forall a | 0 < a < |g'| && g'[a].visited
      ensures exists e: Dir :: IsParentDir(w, h, g', depth', a, e)
    {
      if a == j {
        assert IsParentDir(w, h, g', depth', a, o);
      } else {
        var e: Dir :| IsParentDir(w, h, g, depth, a, e);
        assert IsParentDir(w, h, g', depth', a, e);
      }
    }
    forall a, e1: Dir, e2: Dir | 0 <= a < |g'| && IsParentDir(w, h, g', depth', a, e1) && IsParentDir(w, h, g', depth', a, e2)
      ensures e1 == e2
    {
      if a != j {
        assert IsParentDir(w, h, g, depth, a, e1);
        assert IsParentDir(w, h, g, depth, a, e2);
      }
    }
  }

  /** Every generation step keeps a tree witness. */
  lemma AdvanceTree(w: int, h: int, c: Carving, k: nat, depth: seq<nat>) returns (depth': seq<nat>)
    requires Invariant(w, h, c) && |c.stack| > 0 && ValidPick(w, h, c, k)
    requires Tree(w, h, c.grid, depth)
    ensures Tree(w, h, Advance(w, h, c, k).grid, depth')
  {
    if Finished(w, h, c.grid, IndexOf(w, h, c.current)) {
      depth' := depth;
    } else {
      var d := Candidates(w, h, c.grid, c.current)[k];
      assert d in Candidates(w, h, c.grid, c.current);
      depth' := CarveTree(w, h, c, d, depth);
    }
  }

  /** Visits spread from the origin across a grid whose visited cells are all finished. */
  lemma {:induction false} VisitsSpread(w: int, h: int, g: seq<Cell>, x: int, y: int)
    requires Shape(w, h, g) && g[0].visited
    requires forall i | 0 <= i < |g| && g[i].visited :: Finished(w, h, g, i)
    requires 0 <= x < w && 0 <= y < h
    ensures g[Index(w, h, x, y)].visited
    decreases x + y
  {
    if x > 0 {
      VisitsSpread(w, h, g, x - 1, y);
      IndexInverts(w, h, x - 1, y);
      assert Neighbor(w, h, Index(w, h, x - 1, y), 1) == Index(w, h, x, y);
    } else if y > 0 {
      VisitsSpread(w, h, g, x, y - 1);
      IndexInverts(w, h, x, y - 1);
      assert Neighbor(w, h, Index(w, h, x, y - 1), 0) == Index(w, h, x, y);
    }
  }

  /** Once the stack is empty every cell of the grid has been visited. */
  lemma EmptyStackCoversGrid(w: int, h: int, c: Carving)
    requires Invariant(w, h, c) && c.stack == []
    ensures forall i | 0 <= i < |c.grid| :: c.grid[i].visited
  {
    var g := c.grid;
    forall i | 0 <= i < |g|
      ensures g[i].visited
    {
      IndexOfCoords(w, h, i);
      VisitsSpread(w, h, g, i % w, i / w);
    }
  }

  /**
   * When the stack has emptied, the passages form a spanning tree: every
   * cell visited, exactly `w * h - 1` passages open, connected and acyclic.
   */
  lemma EmptyStackSpans(w: int, h: int, c: Carving, depth: seq<nat>)
    requires Invariant(w, h, c) && Tree(w, h, c.grid, depth) && c.stack == []
    ensures forall i | 0 <= i < |c.grid| :: c.grid[i].visited
    ensures PassageCount(c.grid) == w * h - 1
    ensures Connected(w, h, c.grid) && Acyclic(w, h, c.grid)
  {
    EmptyStackCoversGrid(w, h, c);
    TallyAll(c.grid, VisitMark);
    TreeSpans(w, h, c.grid, depth);
  }
}

=== FILE: grid.dfy ===
/**
 * The maze grid: cells with four wall flags and a visited flag, stored
 * row-major, together with the coordinate <-> index mapping and the
 * fixed direction table shared by the carver and the solver.
 */
module Grid {

  /** The four wall flags of a cell, indexed by direction; `true` = closed. */
  type Walls = s: seq<bool> | |s| == 4 witness [true, true, true, true]

  /** A direction index: 0 = (0,+1), 1 = (+1,0), 2 = (0,-1), 3 = (-1,0). */
  type Dir = d: int | 0 <= d < 4

  datatype Cell = Cell(visited: bool, walls: Walls)

  /** A coordinate pair `(x, y)`, as held on the carver's stack. */
  datatype Pos = Pos(x: int, y: int)

  const Closed: Walls := [true, true, true, true]

  /** A default-constructed cell: unvisited, every wall closed. */
  const Blank: Cell := Cell(false, Closed)

  /** Horizontal offset of direction `d`. */
  function DX(d: Dir): int {
    [0, 1, 0, -1][d]
  }

  /** Vertical offset of direction `d`. */
  function DY(d: Dir): int {
    [1, 0, -1, 0][d]
  }

  /** The wall index facing back from the neighbour in direction `d`. */
  function Opposite(d: Dir): (o: Dir)
    ensures DX(o) == -DX(d) && DY(o) == -DY(d)
    ensures o != d
  {
    (d + 2) % 4
  }

  lemma OppositeInvolutive(d: Dir)
    ensures Opposite(Opposite(d)) == d
  {
  }

  /** A grid of `w * h` cells with positive dimensions. */
  predicate Shape(w: int, h: int, g: seq<Cell>) {
    w > 0 && h > 0 && |g| == w * h
  }

  lemma DivModUnique(a: int, w: int, q: int, r: int)
    requires w > 0 && 0 <= r < w && a == q * w + r
    ensures a / w == q && a % w == r
  {
    var q', r' := a / w, a % w;
    assert a == q' * w + r';
    if q' < q {
      assert (q - q') * w >= w by { MulAtLeast(q - q', w); }
      assert false;
    } else if q < q' {
      assert (q' - q) * w >= w by { MulAtLeast(q' - q, w); }
      assert false;
    }
  }

  lemma MulAtLeast(k: int, w: int)
    requires k >= 1 && w > 0
    ensures k * w >= w
  {
  }

  /**
   * The row-major index of `(x, y)`, or -1 when the coordinate lies off
   * the grid.
   */
  function Index(w: int, h: int, x: int, y: int): (i: int)
    ensures i == -1 <==> !(0 <= x < w && 0 <= y < h)
    ensures i != -1 ==> 0 <= i < w * h
  {
    if x < 0 || x >= w || y < 0 || y >= h then
      -1
    else
      assert y * w + x < w * h by {
        assert (h - 1 - y) * w >= 0;
      }
      y * w + x
  }

  /** An in-grid index inverts to `(i % w, i / w)`. */
  lemma IndexInverts(w: int, h: int, x: int, y: int)
    requires 0 <= x < w && 0 <= y < h
    ensures Index(w, h, x, y) % w == x && Index(w, h, x, y) / w == y
  {
    DivModUnique(y * w + x, w, y, x);
  }

  /** Every in-range index is the index of its own coordinates. */
  lemma IndexOfCoords(w: int, h: int, i: int)
    requires w > 0 && h > 0 && 0 <= i < w * h
    ensures 0 <= i % w < w && 0 <= i / w < h
    ensures Index(w, h, i % w, i / w) == i
  {
  }

  function IndexOf(w: int, h: int, p: Pos): int {
    Index(w, h, p.x, p.y)
  }

  function Move(p: Pos, d: Dir): Pos {
    Pos(p.x + DX(d), p.y + DY(d))
  }

  /** The index of the cell next to cell `i` in direction `d`, or -1 off the grid. */
  function Neighbor(w: int, h: int, i: int, d: Dir): (j: int)
    requires w > 0
    ensures j == -1 || 0 <= j < w * h
  {
    Index(w, h, i % w + DX(d), i / w + DY(d))
  }

  /** Stepping from a coordinate agrees with stepping from its index. */
  lemma NeighborOfPos(w: int, h: int, p: Pos, d: Dir)
    requires w > 0 && 0 <= p.x < w && 0 <= p.y < h
    ensures Neighbor(w, h, IndexOf(w, h, p), d) == IndexOf(w, h, Move(p, d))
  {
    IndexInverts(w, h, p.x, p.y);
  }

  /** Grid adjacency is symmetric: stepping back undoes a step. */
  lemma NeighborBack(w: int, h: int, i: int, d: Dir)
    requires w > 0 && h > 0 && 0 <= i < w * h && Neighbor(w, h, i, d) != -1
    ensures Neighbor(w, h, Neighbor(w, h, i, d), Opposite(d)) == i
  {
    IndexOfCoords(w, h, i);
    IndexInverts(w, h, i % w + DX(d), i / w + DY(d));
  }

  /** No cell is its own neighbour. */
  lemma NeighborDiffers(w: int, h: int, i: int, d: Dir)
    requires w > 0 && h > 0 && 0 <= i < w * h
    ensures Neighbor(w, h, i, d) != i
  {
  }

  /** The wall between two adjacent cells is recorded identically on both sides. */
  predicate Symmetric(w: int, h: int, g: seq<Cell>)
    requires Shape(w, h, g)
  {
    forall i, d: Dir | 0 <= i < |g| && Neighbor(w, h, i, d) != -1 ::
      g[i].walls[d] == g[Neighbor(w, h, i, d)].walls[Opposite(d)]
  }

  /** Every wall on the outer boundary of the grid is closed. */
  predicate Enclosed(w: int, h: int, g: seq<Cell>)
    requires Shape(w, h, g)
  {
    forall i, d: Dir | 0 <= i < |g| && Neighbor(w, h, i, d) == -1 :: g[i].walls[d]
  }

  /** Cell `i` has an open passage towards an in-grid neighbour in direction `d`. */
  predicate Opens(w: int, h: int, g: seq<Cell>, i: int, d: Dir)
    requires Shape(w, h, g) && 0 <= i < |g|
  {
    Neighbor(w, h, i, d) != -1 && !g[i].walls[d]
  }

  /** Cell `a` has an open passage into cell `b`. */
  predicate Linked(w: int, h: int, g: seq<Cell>, a: int, b: int)
    requires Shape(w, h, g)
  {
    0 <= a < |g| && exists d: Dir :: Opens(w, h, g, a, d) && Neighbor(w, h, a, d) == b
  }

  /** On a symmetric grid a passage can be walked both ways. */
  lemma LinkedBack(w: int, h: int, g: seq<Cell>, a: int, b: int)
    requires Shape(w, h, g) && Symmetric(w, h, g) && Linked(w, h, g, a, b)
    ensures Linked(w, h, g, b, a)
  {
    var d: Dir :| Opens(w, h, g, a, d) && Neighbor(w, h, a, d) == b;
    NeighborBack(w, h, a, d);
    assert Opens(w, h, g, b, Opposite(d)) && Neighbor(w, h, b, Opposite(d)) == a;
  }

  /** Every in-grid neighbour of cell `i` has been visited. */
  predicate Finished(w: int, h: int, g: seq<Cell>, i: int)
    requires Shape(w, h, g)
  {
    forall d: Dir :: Neighbor(w, h, i, d) != -1 ==> g[Neighbor(w, h, i, d)].visited
  }

  /** A walk: consecutive cells are joined by open passages. */
  predicate IsWalk(w: int, h: int, g: seq<Cell>, p: seq<int>)
    requires Shape(w, h, g)
  {
    forall k | 0 <= k < |p| - 1 :: Linked(w, h, g, p[k], p[k + 1])
  }

  /** Some walk leads from cell `c` to the origin cell 0. */
  ghost predicate Reaches(w: int, h: int, g: seq<Cell>, c: int)
    requires Shape(w, h, g)
  {
    exists p: seq<int> :: |p| > 0 && p[0] == c && p[|p| - 1] == 0 && IsWalk(w, h, g, p)
  }

  /** The cells of `p` in the opposite order. */
  function Reversed(p: seq<int>): (r: seq<int>)
    ensures |r| == |p| && forall k | 0 <= k < |p| :: r[k] == p[|p| - 1 - k]
  {
    seq(|p|, k requires 0 <= k < |p| => p[|p| - 1 - k])
  }

  /** On a symmetric grid a walk can be followed backwards. */
  lemma ReversedWalk(w: int, h: int, g: seq<Cell>, p: seq<int>)
    requires Shape(w, h, g) && Symmetric(w, h, g) && IsWalk(w, h, g, p)
    ensures IsWalk(w, h, g, Reversed(p))
  {
    var r := Reversed(p);
    forall k | 0 <= k < |r| - 1
      ensures Linked(w, h, g, r[k], r[k + 1])
    {
      var j := |p| - 2 - k;
      assert Linked(w, h, g, p[j], p[j + 1]);
      LinkedBack(w, h, g, p[j], p[j + 1]);
    }
  }

  ghost predicate Connected(w: int, h: int, g: seq<Cell>)
    requires Shape(w, h, g)
  {
    forall c | 0 <= c < |g| :: Reaches(w, h, g, c)
  }

  /** A walk that returns from its last cell to its first. */
  predicate IsClosedWalk(w: int, h: int, g: seq<Cell>, cyc: seq<int>)
    requires Shape(w, h, g)
  {
    forall k | 0 <= k < |cyc| :: Linked(w, h, g, cyc[k], CycleNext(cyc, k))
  }

  predicate Distinct(s: seq<int>) {
    forall k, l | 0 <= k < l < |s| :: s[k] != s[l]
  }

  /** A simple cycle of at least three distinct cells joined by open passages. */
  predicate IsCycle(w: int, h: int, g: seq<Cell>, cyc: seq<int>)
    requires Shape(w, h, g)
  {
    |cyc| >= 3 && Distinct(cyc) && IsClosedWalk(w, h, g, cyc)
  }

  /** The element after position `k` of a cycle, wrapping round at the end. */
  function CycleNext(cyc: seq<int>, k: int): int
    requires 0 <= k < |cyc|
  {
    if k + 1 == |cyc| then cyc[0] else cyc[k + 1]
  }

  ghost predicate Acyclic(w: int, h: int, g: seq<Cell>)
    requires Shape(w, h, g)
  {
    forall cyc :: !IsCycle(w, h, g, cyc)
  }

  // Counting over the cells of a grid.

  function Tally(g: seq<Cell>, f: Cell -> nat): nat {
    if g == [] then 0 else Tally(g[..|g| - 1], f) + f(g[|g| - 1])
  }

  /** Replacing one cell changes a tally by the difference of the two weights. */
  lemma {:induction false} TallyUpdate(g: seq<Cell>, i: int, c: Cell, f: Cell -> nat)
    requires 0 <= i < |g|
    ensures Tally(g[i := c], f) + f(g[i]) == Tally(g, f) + f(c)
    decreases |g|
  {
    var n := |g| - 1;
    if i < n {
      assert g[i := c][..n] == g[..n][i := c];
      TallyUpdate(g[..n], i, c, f);
    } else {
      assert g[i := c][..n] == g[..n];
    }
  }

  /** A weight that is 1 on every cell tallies to the number of cells. */
  lemma {:induction false} TallyAll(g: seq<Cell>, f: Cell -> nat)
    requires forall k | 0 <= k < |g| :: f(g[k]) == 1
    ensures Tally(g, f) == |g|
    decreases |g|
  {
    if g != [] {
      TallyAll(g[..|g| - 1], f);
    }
  }

  /** A weight that is 0 on every cell tallies to 0. */
  lemma {:induction false} TallyNone(g: seq<Cell>, f: Cell -> nat)
    requires forall k | 0 <= k < |g| :: f(g[k]) == 0
    ensures Tally(g, f) == 0
    decreases |g|
  {
    if g != [] {
      TallyNone(g[..|g| - 1], f);
    }
  }

  function VisitMark(c: Cell): nat {
    if c.visited then 1 else 0
  }

  function UnvisitMark(c: Cell): nat {
    if c.visited then 0 else 1
  }

  /**
   * Open walls towards directions 0 and 1 only: on a symmetric, enclosed
   * grid this counts every passage exactly once, from its lower or left end.
   */
  function PassageMark(c: Cell): nat {
    (if c.walls[0] then 0 else 1) + (if c.walls[1] then 0 else 1)
  }

  function VisitedCount(g: seq<Cell>): nat {
    Tally(g, VisitMark)
  }

  function UnvisitedCount(g: seq<Cell>): nat {
    Tally(g, UnvisitMark)
  }

  function PassageCount(g: seq<Cell>): nat {
    Tally(g, PassageMark)
  }
}

=== FILE: machine.dfy ===
/**
 * The maze object: one record holding the carver's grid, stack and
 * current cell, the solver's arrays and queue, and the four-state machine
 * that decides which of the two a step advances.
 */
module Machine {
  import opened Grid
  import opened Spanning
  import Carver
  import Search
  import Shortest

  datatype MazeState = Generating | Idle | Solving | Solved

  datatype Maze = Maze(
    width: int,
    height: int,
    carving: Carver.Carving,
    search: Search.Solver,
    state: MazeState)

  /**
   * A freshly constructed maze: `width * height` default cells, nothing on
   * the stack, empty solver arrays, and the machine idle.
   */
  function NewMaze(w: int, h: int): (m: Maze)
    requires w > 0 && h > 0
    ensures m.width == w && m.height == h && m.state == Idle
    ensures |m.carving.grid| == w * h && forall i | 0 <= i < w * h :: m.carving.grid[i] == Blank
    ensures m.carving.stack == [] && m.search.pq == [] && m.search.finalPath == []
  {
    Maze(w, h, Carver.Carving(seq(w * h, _ => Blank), [], Carver.Origin), Search.Solver([], [], [], [], []), Idle)
  }

  /**
   * Start generating: a fresh grid with the origin visited and on the stack,
   * the solution path cleared. The solver's queue, distances, parents and
   * visited flags are left as they were.
   */
  function SetupGeneration(m: Maze): (m': Maze)
    requires m.width > 0 && m.height > 0
    ensures m'.width == m.width && m'.height == m.height && m'.state == Generating
    ensures |m'.carving.grid| == m.width * m.height
    ensures forall i | 0 <= i < |m'.carving.grid| ::
      m'.carving.grid[i].walls == Closed && (m'.carving.grid[i].visited <==> i == 0)
    ensures m'.carving.stack == [Carver.Origin] && m'.carving.current == Carver.Origin
    ensures m'.search == m.search.(finalPath := [])
  {
    m.(carving := Carver.Setup(m.width, m.height), search := m.search.(finalPath := []), state := Generating)
  }

  /**
   * Starting over is starting generation: every wall closed, only the
   * origin visited and on the stack, the path cleared, and the solver's
   * other data kept.
   */
  function Reset(m: Maze): (m': Maze)
    requires m.width > 0 && m.height > 0
    ensures m'.width == m.width && m'.height == m.height && m'.state == Generating
    ensures |m'.carving.grid| == m.width * m.height
    ensures forall i | 0 <= i < |m'.carving.grid| ::
      m'.carving.grid[i].walls == Closed && (m'.carving.grid[i].visited <==> i == 0)
    ensures m'.carving.stack == [Carver.Origin] && m'.carving.current == Carver.Origin
    ensures m'.search == m.search.(finalPath := [])
  {
    SetupGeneration(m)
  }

  /** Generation has finished: the machine is idle. */
  function IsGenerationDone(m: Maze): bool {
    m.state == Idle
  }

  /** The pick `k` indexes the candidate list whenever there is one. */
  predicate PickFits(m: Maze, k: nat)
    requires Carver.Wf(m.width, m.height, m.carving)
  {
    |m.carving.stack| > 0 ==> Carver.ValidPick(m.width, m.height, m.carving, k)
  }

  /** One generation step: an empty stack ends generation, otherwise carve or backtrack. */
  function StepGeneration(m: Maze, k: nat): (m': Maze)
    requires Carver.Wf(m.width, m.height, m.carving) && PickFits(m, k)
    ensures Carver.Wf(m'.width, m'.height, m'.carving)
    ensures m'.width == m.width && m'.height == m.height && m'.search == m.search
    ensures m.carving.stack == [] ==> m' == m.(state := Idle)
    ensures m.carving.stack != [] ==> m'.state == m.state
  {
    if |m.carving.stack| == 0 then
      m.(state := Idle)
    else
      m.(carving := Carver.Advance(m.width, m.height, m.carving, k))
  }

  /** A current entry for the destination is the least one queued: the next pop settles it. */
  predicate DestinationNext(m: Maze)
    requires Shape(m.width, m.height, m.carving.grid) && Search.Wf(|m.carving.grid|, m.search)
  {
    var pq := m.search.pq;
    |pq| > 0 && Search.PopMin(pq).0.idx == Search.Destination(m.width, m.height)
    && !Search.Stale(Search.PopMin(pq).0, m.search.dist[Search.PopMin(pq).0.idx])
  }

  /**
   * One solver step; the machine moves to `Solved` exactly when the queue
   * is empty or the destination is settled, and otherwise keeps its state.
   */
  function StepDijkstra(m: Maze): (m': Maze)
    requires Shape(m.width, m.height, m.carving.grid)
    requires Search.Wf(|m.carving.grid|, m.search)
    ensures m'.width == m.width && m'.height == m.height && m'.carving == m.carving
    ensures Search.Wf(|m.carving.grid|, m'.search)
    ensures m'.state == Solved <==> m.state == Solved || |m.search.pq| == 0 || DestinationNext(m)
    ensures m'.state != Solved ==> m'.state == m.state
  {
    var r := Search.StepSearch(m.width, m.height, m.carving.grid, m.search);
    m.(search := r.search, state := if r.solved then Solved else m.state)
  }

  /**
   * What a step relies on: positive dimensions, the carver's coordinates on
   * the grid and, while solving, the solver's arrays sized to the grid.
   */
  predicate Ready(m: Maze) {
    && m.width > 0 && m.height > 0
    && Carver.Wf(m.width, m.height, m.carving)
    && (m.state == Solving ==> Search.Wf(|m.carving.grid|, m.search))
  }

  /**
   * The invariant of every reachable maze: coordinates on the grid, walls
   * symmetric between neighbours and closed on the boundary; while
   * generating, the carver invariant and a depth labelling of the tree;
   * while solving, the solver invariant, its optimality invariant and no
   * path yet; once solved, the solver invariant and either no path, when
   * no walk reaches the destination, or a parent chain from the
   * destination no longer than any walk to it.
   */
  ghost predicate Good(m: Maze) {
    && m.width > 0 && m.height > 0
    && Carver.Wf(m.width, m.height, m.carving)
    && Symmetric(m.width, m.height, m.carving.grid) && Enclosed(m.width, m.height, m.carving.grid)
    && (m.state == Generating ==>
          && Carver.Invariant(m.width, m.height, m.carving)
          && exists depth :: Tree(m.width, m.height, m.carving.grid, depth))
    && (m.state == Solving ==>
          && Search.Invariant(m.width, m.height, m.carving.grid, m.search)
          && Shortest.Optimal(m.width, m.height, m.carving.grid, m.search)
          && m.search.finalPath == [])
    && (m.state == Solved ==>
          && Search.Invariant(m.width, m.height, m.carving.grid, m.search)
          && (m.search.finalPath == [] ==>
                forall p :: !Shortest.WalkTo(m.width, m.height, m.carving.grid, p, Search.Destination(m.width, m.height)))
          && (m.search.finalPath != [] ==>
              && Search.ParentChain(m.width, m.height, m.carving.grid, m.search, m.search.finalPath,
                                    Search.Destination(m.width, m.height))
              && forall p | Shortest.WalkTo(m.width, m.height, m.carving.grid, p, Search.Destination(m.width, m.height)) ::
                   |m.search.finalPath| <= |p|))
  }

  /** Advance whichever process the state names; idle and solved mazes stay as they are. */
  function Step(m: Maze, k: nat): (m': Maze)
    requires Ready(m) && (m.state == Generating ==> PickFits(m, k))
    ensures Ready(m') && m'.width == m.width && m'.height == m.height
    ensures m.state in {Idle, Solved} ==> m' == m
    ensures m.state == Generating ==> m'.state in {Generating, Idle} && m'.search == m.search
    ensures m.state == Solving ==> m'.state in {Solving, Solved} && m'.carving == m.carving
  {
    match m.state
    case Generating => StepGeneration(m, k)
    case Solving => StepDijkstra(m)
    case _ => m
  }

  /**
   * Start solving: refused while generating; otherwise the solver starts
   * afresh from the origin.
   */
  function SetupDijkstra(m: Maze): (m': Maze)
    requires m.width > 0 && m.height > 0 && Shape(m.width, m.height, m.carving.grid)
    ensures m.state == Generating ==> m' == m
    ensures m.state != Generating ==>
      && m' == m.(search := m'.search, state := Solving)
      && Search.Wf(|m.carving.grid|, m'.search)
      && m'.search.dist[0] == Search.Fin(0)
      && (forall v | 0 < v < |m.carving.grid| :: m'.search.dist[v] == Search.Inf)
      && (forall v | 0 <= v < |m.carving.grid| :: m'.search.parent[v] == -1 && !m'.search.solveVisited[v])
      && m'.search.pq == [Search.Entry(0, 0)] && m'.search.finalPath == []
  {
    if m.state == Generating then m else m.(search := Search.Start(m.width * m.height), state := Solving)
  }

  // Properties of the machine.

  /** Setting up generation twice is the same as setting it up once. */
  lemma SetupGenerationIdempotent(m: Maze)
    requires m.width > 0 && m.height > 0
    ensures SetupGeneration(SetupGeneration(m)) == SetupGeneration(m)
    ensures Reset(Reset(m)) == Reset(m)
  {
  }

  lemma NewMazeGood(w: int, h: int)
    requires w > 0 && h > 0
    ensures Good(NewMaze(w, h))
  {
  }

  /** Generation set up from any maze starts in a reachable state. */
  lemma SetupGenerationGood(m: Maze)
    requires m.width > 0 && m.height > 0
    ensures Good(SetupGeneration(m))
  {
    Carver.SetupInvariant(m.width, m.height);
  }

  lemma SetupDijkstraGood(m: Maze)
    requires Good(m)
    ensures Good(SetupDijkstra(m))
  {
    if m.state != Generating {
      Search.StartInvariant(m.width, m.height, m.carving.grid);
      Shortest.StartOptimal(m.width, m.height, m.carving.grid);
    }
  }

  /** A solver step keeps the machine invariant. */
  lemma SolveStepGood(m: Maze)
    requires Good(m) && m.state == Solving
    ensures Good(StepDijkstra(m))
  {
    var (w, h, g, s) := (m.width, m.height, m.carving.grid, m.search);
    Search.StepKeeps(w, h, g, s);
    Shortest.StepOptimal(w, h, g, s);
    if |s.pq| == 0 {
      assert StepDijkstra(m) == m.(state := Solved);
    } else if Search.StepSearch(w, h, g, s).solved {
      SolveFoundGood(m);
    }
  }

  /** A solver step that settles the destination leaves a shortest path behind. */
  lemma SolveFoundGood(m: Maze)
    requires Good(m) && m.state == Solving && |m.search.pq| > 0
    requires Search.StepSearch(m.width, m.height, m.carving.grid, m.search).solved
    ensures Good(StepDijkstra(m))
  {
    var (w, h, g, s) := (m.width, m.height, m.carving.grid, m.search);
    Search.StepKeeps(w, h, g, s);
    Shortest.StepOptimal(w, h, g, s);
    Search.ReachDestination(w, h, g, s);
    var r := Search.StepSearch(w, h, g, s).search;
    assert r.finalPath == r.finalPath[|s.finalPath|..];
    assert Search.ParentChain(w, h, g, r, r.finalPath, Search.Destination(w, h));
  }

  /** A generation step keeps the machine invariant. */
  lemma GenerationStepGood(m: Maze, k: nat)
    requires Good(m) && m.state == Generating && PickFits(m, k)
    ensures Good(StepGeneration(m, k))
  {
    if |m.carving.stack| > 0 {
      var depth :| Tree(m.width, m.height, m.carving.grid, depth);
      Carver.CarveOrBacktrack(m.width, m.height, m.carving, k);
      var depth' := Carver.AdvanceTree(m.width, m.height, m.carving, k, depth);
    }
  }

  /** Every step keeps the machine invariant. */
  lemma StepGood(m: Maze, k: nat)
    requires Good(m) && (m.state == Generating ==> PickFits(m, k))
    ensures Good(Step(m, k))
  {
    if m.state == Generating {
      GenerationStepGood(m, k);
    } else if m.state == Solving {
      SolveStepGood(m);
    }
  }

  /**
   * No step breaks the symmetry of walls between neighbouring cells or
   * opens the outer boundary.
   */
  lemma StepKeepsSymmetric(m: Maze, k: nat)
    requires Good(m) && (m.state == Generating ==> PickFits(m, k))
    ensures Symmetric(m.width, m.height, Step(m, k).carving.grid)
    ensures Enclosed(m.width, m.height, Step(m, k).carving.grid)
  {
    StepGood(m, k);
  }

  /**
   * Once generation is done a step changes nothing, and the solver can be
   * started; while generating it cannot.
   */
  lemma GenerationDoneGate(m: Maze, k: nat)
    requires Ready(m) && (m.state == Generating ==> PickFits(m, k))
    ensures IsGenerationDone(m) ==> Step(m, k) == m && SetupDijkstra(m).state == Solving
    ensures m.state == Generating ==> !IsGenerationDone(m) && SetupDijkstra(m) == m
  {
  }

  /**
   * Generation is done exactly after a step that found the stack empty; at
   * that point the passages form a spanning tree of the grid.
   */
  lemma GenerationEnds(m: Maze, k: nat)
    requires Good(m) && m.state == Generating && PickFits(m, k)
    ensures IsGenerationDone(Step(m, k)) <==> m.carving.stack == []
    ensures IsGenerationDone(Step(m, k)) ==>
      var g := Step(m, k).carving.grid;
      && (forall i | 0 <= i < |g| :: g[i].visited)
      && Symmetric(m.width, m.height, g) && Enclosed(m.width, m.height, g)
      && PassageCount(g) == m.width * m.height - 1
      && Connected(m.width, m.height, g) && Acyclic(m.width, m.height, g)
  {
    if m.carving.stack == [] {
      var depth :| Tree(m.width, m.height, m.carving.grid, depth);
      Carver.EmptyStackSpans(m.width, m.height, m.carving, depth);
    }
  }

  /**
   * A solver step ends the search exactly when the queue is empty or the
   * destination is settled, and otherwise stays solving. An empty queue
   * ends the search with no path, and then no walk from the origin reaches
   * the destination; settling the destination always yields a path. A search
   * that ends with a path leaves it running from the destination back to
   * the origin through open passages, one cell per unit of distance, and
   * no walk from the origin to the destination has fewer cells.
   */
  lemma SolveStep(m: Maze, k: nat)
    requires Good(m) && m.state == Solving
    ensures |m.search.pq| == 0 ==> Step(m, k) == m.(state := Solved) && Step(m, k).search.finalPath == []
    ensures |m.search.pq| == 0 ==>
      forall q :: !Shortest.WalkTo(m.width, m.height, m.carving.grid, q, Search.Destination(m.width, m.height))
    ensures Step(m, k).state == Solved <==> |m.search.pq| == 0 || DestinationNext(m)
    ensures Step(m, k).state != Solved ==> Step(m, k).state == Solving
    ensures DestinationNext(m) ==> Step(m, k).search.finalPath != []
    ensures var m' := Step(m, k); var p := m'.search.finalPath;
      m'.state == Solved && p != [] ==>
        && p[0] == Search.Destination(m.width, m.height) && p[|p| - 1] == 0
        && |p| == m'.search.dist[Search.Destination(m.width, m.height)].n + 1
        && (forall i | 0 <= i < |p| - 1 :: Linked(m.width, m.height, m.carving.grid, p[i + 1], p[i]))
        && forall q | Shortest.WalkTo(m.width, m.height, m.carving.grid, q, Search.Destination(m.width, m.height)) ::
             |p| <= |q|
  {
    SolveStepGood(m);
  }

  /**
   * Every cell visited, walls symmetric and the boundary closed, so that
   * the passage count is the number of passages, and the passages a
   * spanning tree of the grid.
   */
  ghost predicate SpanningTree(w: int, h: int, g: seq<Cell>)
    requires Shape(w, h, g)
  {
    && (forall i | 0 <= i < |g| :: g[i].visited)
    && Symmetric(w, h, g) && Enclosed(w, h, g) && PassageCount(g) == w * h - 1
    && Connected(w, h, g) && Acyclic(w, h, g)
  }

  /**
   * One step of the generation driver: `steps` counts the steps taken so
   * far, every carve adding a visited cell and a stack entry and every
   * backtrack removing one entry.
   */
  lemma DriverStep(m: Maze, k: nat, steps: nat)
    requires Good(m) && m.state == Generating && PickFits(m, k)
    requires steps + |m.carving.stack| == 2 * VisitedCount(m.carving.grid) - 1
    ensures Good(Step(m, k))
    ensures var m' := Step(m, k);
      if m'.state == Generating then
        && steps + 1 + |m'.carving.stack| == 2 * VisitedCount(m'.carving.grid) - 1
        && (|| UnvisitedCount(m'.carving.grid) < UnvisitedCount(m.carving.grid)
            || (UnvisitedCount(m'.carving.grid) == UnvisitedCount(m.carving.grid)
                && |m'.carving.stack| < |m.carving.stack|))
      else
        && IsGenerationDone(m') && steps + 1 == 2 * (m.width * m.height)
        && SpanningTree(m.width, m.height, m'.carving.grid)
  {
    GenerationStepGood(m, k);
    if |m.carving.stack| > 0 {
      DriverAdvance(m, k, steps);
    } else {
      DriverFinish(m, k, steps);
    }
  }

  lemma DriverAdvance(m: Maze, k: nat, steps: nat)
    requires Good(m) && m.state == Generating && PickFits(m, k) && |m.carving.stack| > 0
    requires steps + |m.carving.stack| == 2 * VisitedCount(m.carving.grid) - 1
    ensures var c' := Step(m, k).carving;
      && Step(m, k).state == Generating
      && steps + 1 + |c'.stack| == 2 * VisitedCount(c'.grid) - 1
      && (|| UnvisitedCount(c'.grid) < UnvisitedCount(m.carving.grid)
          || (UnvisitedCount(c'.grid) == UnvisitedCount(m.carving.grid) && |c'.stack| < |m.carving.stack|))
  {
    assert Step(m, k).carving == Carver.Advance(m.width, m.height, m.carving, k);
    Carver.CarveOrBacktrack(m.width, m.height, m.carving, k);
    Carver.AdvanceDecreases(m.width, m.height, m.carving, k);
  }

  lemma DriverFinish(m: Maze, k: nat, steps: nat)
    requires Good(m) && m.state == Generating && m.carving.stack == []
    requires steps + |m.carving.stack| == 2 * VisitedCount(m.carving.grid) - 1
    ensures IsGenerationDone(Step(m, k)) && steps + 1 == 2 * (m.width * m.height)
    ensures SpanningTree(m.width, m.height, Step(m, k).carving.grid)
  {
    var g := m.carving.grid;
    assert Step(m, k) == m.(state := Idle);
    GenerationEnds(m, k);
    TallyAll(g, VisitMark);
    var n := m.width * m.height;
    assert VisitedCount(g) == n;
  }

  /**
   * Generation driven to completion, with the pick at step `t` taken as
   * `draw(t)` reduced modulo the number of candidates: it stops after
   * exactly `2 * w * h` steps with the passages forming a spanning tree.
   */
  method Generate(w: int, h: int, draw: nat -> nat) returns (m: Maze, steps: nat)
    requires w > 0 && h > 0
    ensures IsGenerationDone(m) && m.width == w && m.height == h && |m.carving.grid| == w * h
    ensures steps == 2 * (w * h)
    ensures forall i | 0 <= i < |m.carving.grid| :: m.carving.grid[i].visited
    ensures Symmetric(w, h, m.carving.grid) && Enclosed(w, h, m.carving.grid)
    ensures PassageCount(m.carving.grid) == w * h - 1
    ensures Connected(w, h, m.carving.grid) && Acyclic(w, h, m.carving.grid)
  {
    m := SetupGeneration(NewMaze(w, h));
    SetupGenerationGood(NewMaze(w, h));
    Carver.SetupInvariant(w, h);
    steps := 0;
    while m.state == Generating
      invariant Good(m) && m.width == w && m.height == h
      invariant m.state == Generating ==>
        steps + |m.carving.stack| == 2 * VisitedCount(m.carving.grid) - 1
      invariant m.state != Generating ==>
        IsGenerationDone(m) && steps == 2 * (w * h) && SpanningTree(w, h, m.carving.grid)
      decreases m.state == Generating, UnvisitedCount(m.carving.grid), |m.carving.stack|
    {
      var k := 0;
      if |m.carving.stack| > 0 {
        var n := |Carver.Candidates(w, h, m.carving.grid, m.carving.current)|;
        k := if n == 0 then 0 else draw(steps) % n;
      }
      DriverStep(m, k, steps);
      m := Step(m, k);
      steps := steps + 1;
    }
  }

  /**
   * A one-cell maze: after a reset, the first step pops the origin and the
   * second finishes generation; solving then takes one step and finds the
   * path consisting of the origin alone.
   */
  method OneCell() returns (m2: Maze, m3: Maze, m5: Maze)
    ensures m2.state == Generating && m3.state == Idle
    ensures m5.state == Solved && m5.search.finalPath == [0]
  {
    var m0 := NewMaze(1, 1);
    var m1 := Reset(m0);
    m2 := Step(m1, 0);
    m3 := Step(m2, 0);
    var m4 := SetupDijkstra(m3);
    m5 := Step(m4, 0);
  }
}

=== FILE: search.dfy ===
/**
 * The shortest-path solver: Dijkstra's algorithm with every passage of
 * weight 1, a lexicographic min-queue of `(cost, index)` entries with lazy
 * deletion of stale entries, and path reconstruction along parent pointers.
 */
module Search {
  import opened Grid

  /** A distance; `Inf` stands for the `INT_MAX` "unreached" sentinel. */
  datatype Dist = Fin(n: nat) | Inf

  /** Strict order on distances, with `Inf` above every finite distance. */
  predicate Below(a: Dist, b: Dist) {
    match a
    case Inf => false
    case Fin(x) => b.Inf? || x < b.n
  }

  predicate AtMost(a: Dist, b: Dist) {
    !Below(b, a)
  }

  /** One more than `a`; unreached stays unreached. */
  function Succ(a: Dist): Dist {
    match a
    case Inf => Inf
    case Fin(x) => Fin(x + 1)
  }

  /** A frontier entry, the `(cost, idx)` pair of the queue. */
  datatype Entry = Entry(cost: nat, idx: nat)

  /** The pair order the min-queue uses: by cost, then by index. */
  predicate LexLe(a: Entry, b: Entry) {
    a.cost < b.cost || (a.cost == b.cost && a.idx <= b.idx)
  }

  datatype Solver = Solver(
    pq: seq<Entry>,
    dist: seq<Dist>,
    parent: seq<int>,
    solveVisited: seq<bool>,
    finalPath: seq<int>)

  /** What one solver step produced, and whether it ended the search. */
  datatype Progress = Progress(search: Solver, solved: bool)

  predicate ParentsInRange(parent: seq<int>) {
    forall v | 0 <= v < |parent| :: -1 <= parent[v] < |parent|
  }

  /** Arrays sized for `n` cells, queue and parents pointing into them. */
  predicate Wf(n: int, s: Solver) {
    && |s.dist| == n && |s.parent| == n && |s.solveVisited| == n
    && ParentsInRange(s.parent)
    && forall e | e in s.pq :: e.idx < n
  }

  /** Solver setup for `n` cells: origin at distance 0 and queued, everything else unreached. */
  function Start(n: nat): (s: Solver)
    requires n > 0
    ensures Wf(n, s)
    ensures s.dist[0] == Fin(0) && forall v | 0 < v < n :: s.dist[v] == Inf
    ensures forall v | 0 <= v < n :: s.parent[v] == -1 && !s.solveVisited[v]
    ensures s.pq == [Entry(0, 0)] && s.finalPath == []
  {
    Solver([Entry(0, 0)], seq(n, v => if v == 0 then Fin(0) else Inf), seq(n, _ => -1), seq(n, _ => false), [])
  }

  /**
   * Removal of the top of the min-queue: the least entry in the pair
   * order, with the remaining entries returned alongside.
   */
  function PopMin(q: seq<Entry>): (r: (Entry, seq<Entry>))
    requires |q| > 0
    ensures r.0 in q
    ensures forall e | e in q :: LexLe(r.0, e)
    ensures multiset(r.1) + multiset{r.0} == multiset(q)
    ensures forall e | e in r.1 :: e in q
    decreases |q|
  {
    if |q| == 1 then
      (q[0], [])
    else
      var (m, rest) := PopMin(q[1..]);
      assert q == [q[0]] + q[1..];
      if LexLe(q[0], m) then (q[0], q[1..]) else (m, [q[0]] + rest)
  }

  /** An entry whose cost exceeds the recorded distance has been superseded. */
  predicate Stale(e: Entry, d: Dist) {
    d.Fin? && e.cost > d.n
  }

  /**
   * Cell `v` was improved by relaxing from `cur`: it now has `cur` as parent
   * and one more than `cur`'s distance, and it lies through an open wall of `cur`.
   */
  predicate ImprovedFrom(w: int, h: int, g: seq<Cell>, s: Solver, s': Solver, cur: nat, v: int)
    requires Shape(w, h, g) && Wf(|g|, s) && Wf(|g|, s') && cur < |g| && 0 <= v < |g|
  {
    && s'.parent[v] == cur && s'.dist[v] == Succ(s.dist[cur]) && Below(s'.dist[v], s.dist[v])
    && exists d: Dir :: Opens(w, h, g, cur, d) && Neighbor(w, h, cur, d) == v
  }

  /** Relax the edge from `cur` in direction `d`, if it leads onto the grid. */
  function RelaxEdge(w: int, h: int, g: seq<Cell>, s: Solver, cur: nat, d: Dir): (s': Solver)
    requires Shape(w, h, g) && Wf(|g|, s) && cur < |g| && !g[cur].walls[d]
    ensures Wf(|g|, s')
    ensures forall v | 0 <= v < |g| :: AtMost(s'.dist[v], s.dist[v])
    ensures s'.finalPath == s.finalPath && s'.solveVisited == s.solveVisited
    ensures s'.dist[cur] == s.dist[cur]
    ensures Neighbor(w, h, cur, d) != -1 ==> AtMost(s'.dist[Neighbor(w, h, cur, d)], Succ(s.dist[cur]))
    ensures forall v | 0 <= v < |g| && s'.dist[v] != s.dist[v] :: ImprovedFrom(w, h, g, s, s', cur, v)
    ensures forall v | 0 <= v < |g| && s'.dist[v] == s.dist[v] :: s'.parent[v] == s.parent[v]
    ensures Requeued(|g|, s, s')
  {
    var next := Neighbor(w, h, cur, d);
    if next == -1 then
      s
    else
      var newDist := Succ(s.dist[cur]);
      if Below(newDist, s.dist[next]) then
        NeighborDiffers(w, h, cur, d);
        assert Opens(w, h, g, cur, d);
        s.(dist := s.dist[next := newDist],
           parent := s.parent[next := cur],
           pq := s.pq + [Entry(newDist.n, next)])
      else
        s
  }

  /**
   * Relax every open wall of `cur`, directions `d` up to 3 in order. Every
   * open neighbour from `d` on ends no farther than one past `cur`, and
   * every cell whose distance changed was improved from `cur`.
   */
  function RelaxFrom(w: int, h: int, g: seq<Cell>, s: Solver, cur: nat, d: nat): (s': Solver)
    requires Shape(w, h, g) && Wf(|g|, s) && cur < |g| && d <= 4
    ensures Wf(|g|, s')
    ensures forall v | 0 <= v < |g| :: AtMost(s'.dist[v], s.dist[v])
    ensures s'.finalPath == s.finalPath && s'.solveVisited == s.solveVisited
    ensures s'.dist[cur] == s.dist[cur]
    ensures forall e: Dir | d <= e && Opens(w, h, g, cur, e) ::
      AtMost(s'.dist[Neighbor(w, h, cur, e)], Succ(s.dist[cur]))
    ensures forall v | 0 <= v < |g| && s'.dist[v] != s.dist[v] :: ImprovedFrom(w, h, g, s, s', cur, v)
    ensures forall v | 0 <= v < |g| && s'.dist[v] == s.dist[v] :: s'.parent[v] == s.parent[v]
    ensures Requeued(|g|, s, s')
    decreases 4 - d
  {
    if d == 4 then
      s
    else
      var s1 := if g[cur].walls[d] then s else RelaxEdge(w, h, g, s, cur, d);
      var s2 := RelaxFrom(w, h, g, s1, cur, d + 1);
      ImprovedTwice(w, h, g, s, s1, s2, cur);
      RequeuedTwice(|g|, s, s1, s2);
      s2
  }

  /**
   * `s'` keeps the queue of `s` as a prefix and appends one entry for each
   * cell whose distance changed, at its new distance, and nothing else: the
   * appended entries name pairwise distinct cells, each of them changed.
   */
  predicate Requeued(n: nat, s: Solver, s': Solver)
    requires |s.dist| == n && |s'.dist| == n
  {
    && |s.pq| <= |s'.pq| && s'.pq[..|s.pq|] == s.pq
    && (forall v | 0 <= v < n && s'.dist[v] != s.dist[v] ::
          s'.dist[v].Fin? && Entry(s'.dist[v].n, v) in s'.pq[|s.pq|..])
    && (forall i | |s.pq| <= i < |s'.pq| ::
          var x := s'.pq[i].idx; x < n && s'.dist[x] != s.dist[x] && s'.dist[x] == Fin(s'.pq[i].cost))
    && (forall i, j | |s.pq| <= i < j < |s'.pq| :: s'.pq[i].idx != s'.pq[j].idx)
  }

  /** The membership view of `Requeued`: old entries stay, new ones are changed cells. */
  lemma RequeuedMembers(n: nat, s: Solver, s': Solver)
    requires |s.dist| == n && |s'.dist| == n && Requeued(n, s, s')
    ensures forall e | e in s.pq :: e in s'.pq
    ensures forall v | 0 <= v < n && s'.dist[v] != s.dist[v] :: s'.dist[v].Fin? && Entry(s'.dist[v].n, v) in s'.pq
    ensures forall e | e in s'.pq && e !in s.pq ::
      e.idx < n && s'.dist[e.idx] != s.dist[e.idx] && s'.dist[e.idx] == Fin(e.cost)
  {
    assert s'.pq == s.pq + s'.pq[|s.pq|..];
  }

  /**
   * Two relaxation stages compose, provided a cell the first stage changed
   * is left alone by the second.
   */
  lemma {:induction false} RequeuedTwice(n: nat, s: Solver, s1: Solver, s2: Solver)
    requires |s.dist| == n && |s1.dist| == n && |s2.dist| == n
    requires Requeued(n, s, s1) && Requeued(n, s1, s2)
    requires forall v | 0 <= v < n && s1.dist[v] != s.dist[v] :: s2.dist[v] == s1.dist[v]
    ensures Requeued(n, s, s2)
  {
    var a, b := |s.pq|, |s1.pq|;
    assert s2.pq[..a] == s2.pq[..b][..a];
    forall i | a <= i < b
      ensures s2.pq[i] == s1.pq[i]
    {
      assert s2.pq[i] == s2.pq[..b][i];
    }
    forall v | 0 <= v < n && s2.dist[v] != s.dist[v]
      ensures s2.dist[v].Fin? && Entry(s2.dist[v].n, v) in s2.pq[a..]
    {
      if s2.dist[v] == s1.dist[v] {
        var e := Entry(s1.dist[v].n, v);
        var i :| 0 <= i < b - a && s1.pq[a..][i] == e;
        assert s2.pq[a + i] == s1.pq[a + i];
      } else {
        var e := Entry(s2.dist[v].n, v);
        var i :| 0 <= i < |s2.pq| - b && s2.pq[b..][i] == e;
        assert s2.pq[a..][i + (b - a)] == e;
      }
    }
    forall i | a <= i < |s2.pq|
      ensures var x := s2.pq[i].idx; x < n && s2.dist[x] != s.dist[x] && s2.dist[x] == Fin(s2.pq[i].cost)
    {
      if i < b {
        assert s2.pq[i] == s1.pq[i];
      }
    }
    forall i, j | a <= i < j < |s2.pq|
      ensures s2.pq[i].idx != s2.pq[j].idx
    {
      if i < b && b <= j {
        assert s2.pq[i] == s1.pq[i];
      }
    }
  }

  /** Two relaxation stages from the same cell compose into one. */
  lemma ImprovedTwice(w: int, h: int, g: seq<Cell>, s: Solver, s1: Solver, s2: Solver, cur: nat)
    requires Shape(w, h, g) && Wf(|g|, s) && Wf(|g|, s1) && Wf(|g|, s2) && cur < |g|
    requires s1.dist[cur] == s.dist[cur]
    requires forall v | 0 <= v < |g| :: AtMost(s1.dist[v], s.dist[v])
    requires forall v | 0 <= v < |g| :: AtMost(s2.dist[v], s1.dist[v])
    requires forall v | 0 <= v < |g| && s1.dist[v] != s.dist[v] :: ImprovedFrom(w, h, g, s, s1, cur, v)
    requires forall v | 0 <= v < |g| && s1.dist[v] == s.dist[v] :: s1.parent[v] == s.parent[v]
    requires forall v | 0 <= v < |g| && s2.dist[v] != s1.dist[v] :: ImprovedFrom(w, h, g, s1, s2, cur, v)
    requires forall v | 0 <= v < |g| && s2.dist[v] == s1.dist[v] :: s2.parent[v] == s1.parent[v]
    ensures forall v | 0 <= v < |g| && s2.dist[v] != s.dist[v] :: ImprovedFrom(w, h, g, s, s2, cur, v)
    ensures forall v | 0 <= v < |g| && s2.dist[v] == s.dist[v] :: s2.parent[v] == s.parent[v]
    ensures forall v | 0 <= v < |g| && s1.dist[v] != s.dist[v] :: s2.dist[v] == s1.dist[v]
  {
    forall v | 0 <= v < |g| && s1.dist[v] != s.dist[v]
      ensures s2.dist[v] == s1.dist[v]
    {
      assert ImprovedFrom(w, h, g, s, s1, cur, v);
      if s2.dist[v] != s1.dist[v] {
        assert false;
      }
    }
    forall v | 0 <= v < |g| && s2.dist[v] != s.dist[v]
      ensures ImprovedFrom(w, h, g, s, s2, cur, v)
    {
      if s2.dist[v] != s1.dist[v] {
        assert ImprovedFrom(w, h, g, s1, s2, cur, v);
        if s1.dist[v] != s.dist[v] {
          assert false;
        }
      } else {
        assert ImprovedFrom(w, h, g, s, s1, cur, v);
      }
    }
  }

  /** Follow parent pointers from `i` until -1, at most `fuel` times. */
  function PathFrom(parent: seq<int>, i: int, fuel: nat): seq<int>
    requires ParentsInRange(parent) && -1 <= i < |parent|
    decreases fuel
  {
    if i == -1 || fuel == 0 then [] else [i] + PathFrom(parent, parent[i], fuel - 1)
  }

  /** The destination cell, the top-right corner. */
  function Destination(w: int, h: int): int {
    Index(w, h, w - 1, h - 1)
  }

  /**
   * Settle a popped, current entry: mark its cell visited, then either end
   * the search at the destination with the parent chain appended to the
   * path, or relax the cell's open walls.
   */
  function Settle(w: int, h: int, g: seq<Cell>, s: Solver, cur: nat): (r: Progress)
    requires Shape(w, h, g) && Wf(|g|, s) && cur < |g|
    ensures Wf(|g|, r.search)
    ensures forall v | 0 <= v < |g| :: AtMost(r.search.dist[v], s.dist[v])
    ensures !r.solved ==> r.search.finalPath == s.finalPath
    ensures r.search.solveVisited == s.solveVisited[cur := true]
    ensures r.solved <==> cur == Destination(w, h)
  {
    var s1 := s.(solveVisited := s.solveVisited[cur := true]);
    if cur == Destination(w, h) then
      Progress(s1.(finalPath := s1.finalPath + PathFrom(s1.parent, cur, |s1.parent|)), true)
    else
      Progress(RelaxFrom(w, h, g, s1, cur, 0), false)
  }

  /**
   * One solver step. An empty queue ends the search. Otherwise the least
   * entry is popped; a stale one is dropped, a current one is settled.
   */
  function StepSearch(w: int, h: int, g: seq<Cell>, s: Solver): (r: Progress)
    requires Shape(w, h, g) && Wf(|g|, s)
    ensures Wf(|g|, r.search)
    ensures forall v | 0 <= v < |g| :: AtMost(r.search.dist[v], s.dist[v])
    ensures !r.solved ==> r.search.finalPath == s.finalPath
    ensures r.solved <==>
      || |s.pq| == 0
      || (PopMin(s.pq).0.idx == Destination(w, h) && !Stale(PopMin(s.pq).0, s.dist[PopMin(s.pq).0.idx]))
  {
    if |s.pq| == 0 then
      Progress(s, true)
    else
      var popped := PopMin(s.pq);
      var top := popped.0;
      var s1 := s.(pq := popped.1);
      if Stale(top, s.dist[top.idx]) then Progress(s1, false) else Settle(w, h, g, s1, top.idx)
  }

  // The solver invariant.

  /** Cell `v`'s parent is a settled, open neighbour exactly one step nearer the origin. */
  predicate ParentOk(w: int, h: int, g: seq<Cell>, s: Solver, v: int)
    requires Shape(w, h, g) && Wf(|g|, s) && 0 <= v < |g|
  {
    var p := s.parent[v];
    && 0 <= p < |g| && s.dist[p].Fin? && s.dist[v].Fin?
    && s.dist[p].n + 1 == s.dist[v].n
    && Linked(w, h, g, p, v)
  }

  /** Every queued entry names a reached cell and costs at least its recorded distance. */
  predicate QueueSound(s: Solver) {
    forall e | e in s.pq :: e.idx < |s.dist| && s.dist[e.idx].Fin? && s.dist[e.idx].n <= e.cost
  }

  /** Every settled cell is reached, and no farther than any queued entry. */
  predicate SettledFirst(s: Solver)
    requires |s.solveVisited| == |s.dist|
  {
    && (forall v | 0 <= v < |s.dist| && s.solveVisited[v] :: s.dist[v].Fin?)
    && (forall v, e | 0 <= v < |s.dist| && s.solveVisited[v] && e in s.pq :: s.dist[v].n <= e.cost)
  }

  predicate Invariant(w: int, h: int, g: seq<Cell>, s: Solver)
    requires Shape(w, h, g)
  {
    && Wf(|g|, s)
    && s.dist[0] == Fin(0) && s.parent[0] == -1
    && QueueSound(s)
    && SettledFirst(s)
    && (forall v | 0 < v < |g| && s.dist[v].Fin? :: ParentOk(w, h, g, s, v))
    && (forall v | 0 <= v < |g| && s.dist[v].Inf? :: s.parent[v] == -1)
    && (forall v | 0 <= v < |g| && s.parent[v] != -1 :: s.solveVisited[s.parent[v]])
  }

  lemma StartInvariant(w: int, h: int, g: seq<Cell>)
    requires Shape(w, h, g)
    ensures Invariant(w, h, g, Start(|g|))
  {
  }

  /** The invariant while the open walls of the settled cell `cur` are relaxed. */
  predicate Relaxing(w: int, h: int, g: seq<Cell>, s: Solver, cur: int)
    requires Shape(w, h, g)
  {
    && Invariant(w, h, g, s)
    && 0 <= cur < |g| && s.solveVisited[cur] && s.dist[cur].Fin?
    && forall v | 0 <= v < |g| && s.solveVisited[v] :: s.dist[v].n <= s.dist[cur].n
  }

  lemma RelaxEdgeKeeps(w: int, h: int, g: seq<Cell>, s: Solver, cur: nat, d: Dir)
    requires Shape(w, h, g) && Relaxing(w, h, g, s, cur) && !g[cur].walls[d]
    ensures Relaxing(w, h, g, RelaxEdge(w, h, g, s, cur, d), cur)
    ensures RelaxEdge(w, h, g, s, cur, d).dist[cur] == s.dist[cur]
  {
    var next := Neighbor(w, h, cur, d);
    if next != -1 && Below(Succ(s.dist[cur]), s.dist[next]) {
      var s' := RelaxEdge(w, h, g, s, cur, d);
      assert Linked(w, h, g, cur, next) by {
        assert Opens(w, h, g, cur, d);
      }
      assert ParentOk(w, h, g, s', next);
      assert next != 0 && !s.solveVisited[next];
      forall v | 0 < v < |g| && s'.dist[v].Fin?
        ensures ParentOk(w, h, g, s', v)
      {
        if v != next {
          assert ParentOk(w, h, g, s, v);
        }
      }
    }
  }

  lemma {:induction false} RelaxFromKeeps(w: int, h: int, g: seq<Cell>, s: Solver, cur: nat, d: nat)
    requires Shape(w, h, g) && Relaxing(w, h, g, s, cur) && d <= 4
    ensures Relaxing(w, h, g, RelaxFrom(w, h, g, s, cur, d), cur)
    decreases 4 - d
  {
    if d < 4 {
      if !g[cur].walls[d] {
        RelaxEdgeKeeps(w, h, g, s, cur, d);
      }
      var s1 := if g[cur].walls[d] then s else RelaxEdge(w, h, g, s, cur, d);
      RelaxFromKeeps(w, h, g, s1, cur, d + 1);
    }
  }

  /** Dropping queue entries keeps the invariant. */
  lemma DropKeeps(w: int, h: int, g: seq<Cell>, s: Solver, q: seq<Entry>)
    requires Shape(w, h, g) && Invariant(w, h, g, s)
    requires forall e | e in q :: e in s.pq
    ensures Invariant(w, h, g, s.(pq := q))
  {
  }

  /**
   * Settling a cell whose distance is no more than any queued cost and at
   * least every settled distance keeps the invariant.
   */
  lemma SettleKeeps(w: int, h: int, g: seq<Cell>, s: Solver, cur: nat)
    requires Shape(w, h, g) && Invariant(w, h, g, s) && cur < |g| && s.dist[cur].Fin?
    requires forall e | e in s.pq :: s.dist[cur].n <= e.cost
    requires forall v | 0 <= v < |g| && s.solveVisited[v] :: s.dist[v].n <= s.dist[cur].n
    ensures Invariant(w, h, g, Settle(w, h, g, s, cur).search)
  {
    var s1 := s.(solveVisited := s.solveVisited[cur := true]);
    if cur != Destination(w, h) {
      assert Relaxing(w, h, g, s1, cur);
      RelaxFromKeeps(w, h, g, s1, cur, 0);
    } else {
      MarkKeeps(w, h, g, s, cur);
    }
  }

  /** Marking a cell settled keeps the invariant when it is no farther than any queued cost. */
  lemma MarkKeeps(w: int, h: int, g: seq<Cell>, s: Solver, cur: nat)
    requires Shape(w, h, g) && Invariant(w, h, g, s) && cur < |g| && s.dist[cur].Fin?
    requires forall e | e in s.pq :: s.dist[cur].n <= e.cost
    ensures Invariant(w, h, g, s.(solveVisited := s.solveVisited[cur := true]))
  {
  }

  /** Every solver step keeps the invariant. */
  lemma StepKeeps(w: int, h: int, g: seq<Cell>, s: Solver)
    requires Shape(w, h, g) && Invariant(w, h, g, s)
    ensures Invariant(w, h, g, StepSearch(w, h, g, s).search)
  {
    if |s.pq| > 0 {
      var (top, rest) := PopMin(s.pq);
      DropKeeps(w, h, g, s, rest);
      if !Stale(top, s.dist[top.idx]) {
        assert s.dist[top.idx] == Fin(top.cost);
        SettleKeeps(w, h, g, s.(pq := rest), top.idx);
      }
    }
  }

  // Path reconstruction.

  /**
   * `p` runs from cell `v` back to the origin along passages, each step
   * one unit nearer by recorded distance.
   */
  predicate ParentChain(w: int, h: int, g: seq<Cell>, s: Solver, p: seq<int>, v: int)
    requires Shape(w, h, g) && Wf(|g|, s) && 0 <= v < |g|
  {
    && s.dist[v].Fin?
    && |p| == s.dist[v].n + 1
    && p[0] == v && p[|p| - 1] == 0
    && (forall k | 0 <= k < |p| :: 0 <= p[k] < |g| && s.dist[p[k]].Fin? && s.dist[p[k]].n + k == s.dist[v].n)
    && (forall k | 0 <= k < |p| - 1 :: Linked(w, h, g, p[k + 1], p[k]))
  }

  /** With fuel beyond the distance, following parents from `v` gives its chain to the origin. */
  lemma {:induction false} PathShape(w: int, h: int, g: seq<Cell>, s: Solver, v: int, fuel: nat)
    requires Shape(w, h, g) && Invariant(w, h, g, s)
    requires 0 <= v < |g| && s.dist[v].Fin? && fuel > s.dist[v].n
    ensures ParentChain(w, h, g, s, PathFrom(s.parent, v, fuel), v)
    decreases s.dist[v].n
  {
    if v == 0 {
      assert PathFrom(s.parent, v, fuel) == [0];
    } else {
      assert ParentOk(w, h, g, s, v);
      var u := s.parent[v];
      PathShape(w, h, g, s, u, fuel - 1);
      var q := PathFrom(s.parent, u, fuel - 1);
      var p := PathFrom(s.parent, v, fuel);
      assert p == [v] + q;
      forall k | 0 <= k < |p| - 1
        ensures Linked(w, h, g, p[k + 1], p[k])
      {
        if k > 0 {
          assert p[k + 1] == q[k] && p[k] == q[k - 1];
        }
      }
    }
  }

  /** A sequence of distinct values below `n` has at most `n` elements. */
  lemma {:induction false} DistinctBound(p: seq<int>, n: nat)
    requires Distinct(p) && forall k | 0 <= k < |p| :: 0 <= p[k] < n
    ensures |p| <= n
    decreases n
  {
    if p != [] {
      assert 0 <= p[0] < n;
      if k :| 0 <= k < |p| && p[k] == n - 1 {
        var q := p[..k] + p[k + 1..];
        assert forall j | 0 <= j < |q| :: q[j] == if j < k then p[j] else p[j + 1];
        DistinctBound(q, n - 1);
      } else {
        DistinctBound(p, n - 1);
      }
    }
  }

  /** A recorded distance is shorter than the number of cells. */
  lemma DistBelowSize(w: int, h: int, g: seq<Cell>, s: Solver, v: int)
    requires Shape(w, h, g) && Invariant(w, h, g, s) && 0 <= v < |g| && s.dist[v].Fin?
    ensures s.dist[v].n < |g|
  {
    var p := PathFrom(s.parent, v, s.dist[v].n + 1);
    PathShape(w, h, g, s, v, s.dist[v].n + 1);
    assert Distinct(p) by {
      forall k, l | 0 <= k < l < |p|
        ensures p[k] != p[l]
      {
        assert s.dist[p[k]].n + k == s.dist[p[l]].n + l;
      }
    }
    DistinctBound(p, |g|);
  }

  /** Following parents with one unit of fuel per cell always reaches the origin. */
  lemma ParentChainFromCells(w: int, h: int, g: seq<Cell>, s: Solver, v: int)
    requires Shape(w, h, g) && Invariant(w, h, g, s) && 0 <= v < |g| && s.dist[v].Fin?
    ensures ParentChain(w, h, g, s, PathFrom(s.parent, v, |s.parent|), v)
  {
    DistBelowSize(w, h, g, s, v);
    PathShape(w, h, g, s, v, |s.parent|);
  }

  /** The parent walk from a reached cell is non-empty and stops at the origin, which has no parent. */
  lemma ChainEnds(w: int, h: int, g: seq<Cell>, s: Solver, v: int)
    requires Shape(w, h, g) && Invariant(w, h, g, s) && 0 <= v < |g| && s.dist[v].Fin?
    ensures var p := PathFrom(s.parent, v, |s.parent|);
      |p| > 0 && p[|p| - 1] == 0 && s.parent[0] == -1
  {
    ParentChainFromCells(w, h, g, s, v);
  }

  /** Each cell of a parent walk is followed by its parent. */
  lemma {:induction false} PathFromFollows(parent: seq<int>, i: int, fuel: nat)
    requires ParentsInRange(parent) && -1 <= i < |parent|
    ensures var p := PathFrom(parent, i, fuel);
      && (|p| > 0 ==> p[0] == i)
      && forall k | 0 <= k < |p| - 1 :: 0 <= p[k] < |parent| && p[k + 1] == parent[p[k]]
    decreases fuel
  {
    if i != -1 && fuel > 0 {
      PathFromFollows(parent, parent[i], fuel - 1);
      var q := PathFrom(parent, parent[i], fuel - 1);
      var p := PathFrom(parent, i, fuel);
      assert p == [i] + q;
      forall k | 0 < k < |p| - 1
        ensures p[k + 1] == parent[p[k]]
      {
        assert p[k] == q[k - 1] && p[k + 1] == q[k];
      }
    }
  }

  /**
   * The reconstruction loop: push the current cell and move to its parent
   * until the parent is -1.
   */
  method Reconstruct(w: int, h: int, g: seq<Cell>, s: Solver, end: int) returns (path: seq<int>)
    requires Shape(w, h, g) && Invariant(w, h, g, s) && 0 <= end < |g| && s.dist[end].Fin?
    ensures path == PathFrom(s.parent, end, |s.parent|)
    ensures ParentChain(w, h, g, s, path, end)
  {
    ghost var chain := PathFrom(s.parent, end, |s.parent|);
    ChainEnds(w, h, g, s, end);
    PathFromFollows(s.parent, end, |s.parent|);
    path := [];
    var curr := end;
    while curr != -1
      invariant |path| <= |chain| && path == chain[..|path|]
      invariant curr == if |path| < |chain| then chain[|path|] else -1
      decreases |chain| - |path|
    {
      path := path + [curr];
      curr := s.parent[curr];
    }
    assert path == chain;
    ParentChainFromCells(w, h, g, s, end);
  }

  /** Popping a current entry for the destination ends the search with its chain appended. */
  lemma ReachDestination(w: int, h: int, g: seq<Cell>, s: Solver)
    requires Shape(w, h, g) && Invariant(w, h, g, s) && |s.pq| > 0
    requires PopMin(s.pq).0.idx == Destination(w, h) && !Stale(PopMin(s.pq).0, s.dist[Destination(w, h)])
    ensures StepSearch(w, h, g, s).solved
    ensures var r := StepSearch(w, h, g, s).search;
      && r.dist == s.dist && r.parent == s.parent
      && |r.finalPath| == |s.finalPath| + s.dist[Destination(w, h)].n + 1
      && r.finalPath[..|s.finalPath|] == s.finalPath
      && ParentChain(w, h, g, s, r.finalPath[|s.finalPath|..], Destination(w, h))
  {
    var t := Destination(w, h);
    ParentChainFromCells(w, h, g, s, t);
    var r := StepSearch(w, h, g, s).search;
    assert r.finalPath == s.finalPath + PathFrom(s.parent, t, |s.parent|);
    assert r.finalPath[|s.finalPath|..] == PathFrom(s.parent, t, |s.parent|);
  }

  /** A stale pop removes exactly that entry and changes nothing else. */
  lemma StaleDrops(w: int, h: int, g: seq<Cell>, s: Solver)
    requires Shape(w, h, g) && Wf(|g|, s) && |s.pq| > 0
    requires Stale(PopMin(s.pq).0, s.dist[PopMin(s.pq).0.idx])
    ensures var r := StepSearch(w, h, g, s);
      && !r.solved
      && r.search.(pq := s.pq) == s
      && multiset(r.search.pq) + multiset{PopMin(s.pq).0} == multiset(s.pq)
  {
  }

  /** An empty queue ends the search and leaves everything as it was. */
  lemma EmptyQueueEnds(w: int, h: int, g: seq<Cell>, s: Solver)
    requires Shape(w, h, g) && Wf(|g|, s) && |s.pq| == 0
    ensures StepSearch(w, h, g, s) == Progress(s, true)
  {
  }
}

=== FILE: shortest.dfy ===
/**
 * Optimality of the solver. Every settled cell's open walls have been
 * relaxed, every reached but unsettled cell is queued at its distance, and
 * no walk to a settled cell is shorter than its recorded distance. Hence
 * the least queued entry is never farther than any walk to its cell, and
 * the path reconstructed at the destination is a shortest one.
 */
module Shortest {
  import opened Grid
  import opened Search

  /** `p` is a walk through open passages from the origin to cell `x`. */
  predicate WalkTo(w: int, h: int, g: seq<Cell>, p: seq<int>, x: int)
    requires Shape(w, h, g)
  {
    |p| > 0 && p[0] == 0 && p[|p| - 1] == x && IsWalk(w, h, g, p)
  }

  /**
   * On a symmetric grid a cell reaches the origin exactly when a walk leads
   * from the origin to it: the two orientations name one relation.
   */
  lemma ReachesIffWalkTo(w: int, h: int, g: seq<Cell>, c: int)
    requires Shape(w, h, g) && Symmetric(w, h, g)
    ensures Reaches(w, h, g, c) <==> exists p :: WalkTo(w, h, g, p, c)
  {
    if Reaches(w, h, g, c) {
      var p: seq<int> :| |p| > 0 && p[0] == c && p[|p| - 1] == 0 && IsWalk(w, h, g, p);
      ReversedWalk(w, h, g, p);
      assert WalkTo(w, h, g, Reversed(p), c);
    }
    if exists p :: WalkTo(w, h, g, p, c) {
      var p :| WalkTo(w, h, g, p, c);
      ReversedWalk(w, h, g, p);
      var r := Reversed(p);
      assert |r| > 0 && r[0] == c && r[|r| - 1] == 0 && IsWalk(w, h, g, r);
    }
  }

  /** In a connected, symmetric maze a walk leads from the origin to every cell. */
  lemma ConnectedWalks(w: int, h: int, g: seq<Cell>, c: int)
    requires Shape(w, h, g) && Symmetric(w, h, g) && Connected(w, h, g) && 0 <= c < |g|
    ensures exists p :: WalkTo(w, h, g, p, c)
  {
    ReachesIffWalkTo(w, h, g, c);
  }

  /** Every settled cell other than `skip` has had its open walls relaxed. */
  predicate Relaxed(w: int, h: int, g: seq<Cell>, s: Solver, skip: int)
    requires Shape(w, h, g) && Wf(|g|, s)
  {
    forall x, d: Dir | 0 <= x < |g| && x != skip && s.solveVisited[x] && Opens(w, h, g, x, d) ::
      AtMost(s.dist[Neighbor(w, h, x, d)], Succ(s.dist[x]))
  }

  /** Every reached cell that is not yet settled is queued at its recorded distance. */
  predicate Queued(s: Solver)
    requires |s.solveVisited| == |s.dist|
  {
    forall y | 0 <= y < |s.dist| && !s.solveVisited[y] && s.dist[y].Fin? :: Entry(s.dist[y].n, y) in s.pq
  }

  /** No walk to a settled cell is shorter than its recorded distance. */
  ghost predicate SettledShortest(w: int, h: int, g: seq<Cell>, s: Solver)
    requires Shape(w, h, g) && Wf(|g|, s)
  {
    forall x, p | 0 <= x < |g| && s.solveVisited[x] && WalkTo(w, h, g, p, x) ::
      s.dist[x].Fin? && s.dist[x].n < |p|
  }

  /** The optimality invariant while the search runs. */
  ghost predicate Optimal(w: int, h: int, g: seq<Cell>, s: Solver)
    requires Shape(w, h, g) && Wf(|g|, s)
  {
    && Relaxed(w, h, g, s, -1)
    && Queued(s)
    && SettledShortest(w, h, g, s)
    && !s.solveVisited[Destination(w, h)]
  }

  lemma StartOptimal(w: int, h: int, g: seq<Cell>)
    requires Shape(w, h, g)
    ensures Optimal(w, h, g, Start(|g|))
  {
    var s := Start(|g|);
    assert Queued(s) by {
      forall y | 0 <= y < |s.dist| && !s.solveVisited[y] && s.dist[y].Fin?
        ensures Entry(s.dist[y].n, y) in s.pq
      {
        assert y == 0;
      }
    }
  }

  /** Every cell of a walk to a cell of the grid lies on the grid. */
  lemma WalkInRange(w: int, h: int, g: seq<Cell>, p: seq<int>, x: int)
    requires Shape(w, h, g) && WalkTo(w, h, g, p, x) && 0 <= x < |g|
    ensures forall k | 0 <= k < |p| :: 0 <= p[k] < |g|
  {
    forall k | 0 <= k < |p|
      ensures 0 <= p[k] < |g|
    {
      if k < |p| - 1 {
        assert Linked(w, h, g, p[k], p[k + 1]);
      }
    }
  }

  /** A non-empty prefix of a walk from the origin is a walk to its last cell. */
  lemma PrefixWalk(w: int, h: int, g: seq<Cell>, p: seq<int>, x: int, j: int)
    requires Shape(w, h, g) && WalkTo(w, h, g, p, x) && 1 <= j <= |p|
    ensures WalkTo(w, h, g, p[..j], p[j - 1])
  {
    assert forall k | 0 <= k < j - 1 :: Linked(w, h, g, p[k], p[k + 1]);
  }

  /** The position of the first unsettled cell of `p`, or `|p|` when all are settled. */
  lemma FirstUnsettled(s: Solver, p: seq<int>) returns (j: nat)
    requires forall k | 0 <= k < |p| :: 0 <= p[k] < |s.solveVisited|
    ensures j <= |p|
    ensures forall k | 0 <= k < j :: s.solveVisited[p[k]]
    ensures j < |p| ==> !s.solveVisited[p[j]]
  {
    j := 0;
    while j < |p| && s.solveVisited[p[j]]
      invariant j <= |p|
      invariant forall k | 0 <= k < j :: s.solveVisited[p[k]]
    {
      j := j + 1;
    }
  }

  /**
   * The least queued entry, when current, is no farther than any walk to
   * its cell: the walk leaves the settled cells somewhere, and the first
   * unsettled cell on it is queued no farther than its place on the walk.
   */
  lemma PopIsShortest(w: int, h: int, g: seq<Cell>, s: Solver, p: seq<int>)
    requires Shape(w, h, g) && Invariant(w, h, g, s) && Optimal(w, h, g, s) && |s.pq| > 0
    requires !Stale(PopMin(s.pq).0, s.dist[PopMin(s.pq).0.idx])
    requires WalkTo(w, h, g, p, PopMin(s.pq).0.idx)
    ensures PopMin(s.pq).0.cost < |p|
  {
    var top := PopMin(s.pq).0;
    var u := top.idx;
    assert s.dist[u] == Fin(top.cost);
    WalkInRange(w, h, g, p, u);
    var j := FirstUnsettled(s, p);
    if j == |p| {
      assert s.solveVisited[u];
    } else if j == 0 {
      assert Entry(0, 0) in s.pq;
    } else {
      var x := p[j - 1];
      PrefixWalk(w, h, g, p, u, j);
      assert s.dist[x].n < j;
      assert Linked(w, h, g, x, p[j]);
      var d: Dir :| Opens(w, h, g, x, d) && Neighbor(w, h, x, d) == p[j];
      assert AtMost(s.dist[p[j]], Succ(s.dist[x]));
      assert Entry(s.dist[p[j]].n, p[j]) in s.pq;
    }
  }

  /** An entry other than the one popped is still queued. */
  lemma StillQueued(q: seq<Entry>, e: Entry)
    requires |q| > 0 && e in q && e != PopMin(q).0
    ensures e in PopMin(q).1
  {
    var (top, rest) := PopMin(q);
    assert e in multiset(q);
    assert e in multiset(rest);
  }

  lemma StaleOptimal(w: int, h: int, g: seq<Cell>, s: Solver)
    requires Shape(w, h, g) && Invariant(w, h, g, s) && Optimal(w, h, g, s) && |s.pq| > 0
    requires Stale(PopMin(s.pq).0, s.dist[PopMin(s.pq).0.idx])
    ensures Optimal(w, h, g, s.(pq := PopMin(s.pq).1))
  {
    var s' := s.(pq := PopMin(s.pq).1);
    forall y | 0 <= y < |s.dist| && !s.solveVisited[y] && s.dist[y].Fin?
      ensures Entry(s.dist[y].n, y) in s'.pq
    {
      StillQueued(s.pq, Entry(s.dist[y].n, y));
    }
  }

  /** Settling the destination records a distance no longer than any walk to it. */
  lemma DestinationShortest(w: int, h: int, g: seq<Cell>, s: Solver, p: seq<int>)
    requires Shape(w, h, g) && Invariant(w, h, g, s) && Optimal(w, h, g, s) && |s.pq| > 0
    requires StepSearch(w, h, g, s).solved
    requires WalkTo(w, h, g, p, Destination(w, h))
    ensures StepSearch(w, h, g, s).search.dist == s.dist
    ensures s.dist[Destination(w, h)].Fin? && s.dist[Destination(w, h)].n < |p|
  {
    PopIsShortest(w, h, g, s, p);
  }

  /**
   * What settling a current, non-destination least entry does: it marks its
   * cell settled, keeps the distances of settled cells, relaxes every open
   * wall of the cell, keeps the rest of the queue as a prefix, and appends
   * exactly one entry for each cell whose distance it improves, at that new
   * distance, and nothing else.
   */
  lemma SettleEffect(w: int, h: int, g: seq<Cell>, s: Solver)
    requires Shape(w, h, g) && Invariant(w, h, g, s) && |s.pq| > 0
    requires !Stale(PopMin(s.pq).0, s.dist[PopMin(s.pq).0.idx])
    requires PopMin(s.pq).0.idx != Destination(w, h)
    ensures var r := StepSearch(w, h, g, s).search; var u := PopMin(s.pq).0.idx;
      && r.solveVisited == s.solveVisited[u := true]
      && s.dist[u] == Fin(PopMin(s.pq).0.cost)
      && r.dist[u] == s.dist[u]
      && (forall x | 0 <= x < |g| && s.solveVisited[x] :: r.dist[x] == s.dist[x])
      && (forall d: Dir | Opens(w, h, g, u, d) :: AtMost(r.dist[Neighbor(w, h, u, d)], Succ(s.dist[u])))
      && var rest := PopMin(s.pq).1;
      && |rest| <= |r.pq| && r.pq[..|rest|] == rest
      && (forall v | 0 <= v < |g| && r.dist[v] != s.dist[v] ::
            r.dist[v].Fin? && Entry(r.dist[v].n, v) in r.pq[|rest|..])
      && (forall i | |rest| <= i < |r.pq| ::
            var x := r.pq[i].idx; x < |g| && r.dist[x] != s.dist[x] && r.dist[x] == Fin(r.pq[i].cost))
      && (forall i, j | |rest| <= i < j < |r.pq| :: r.pq[i].idx != r.pq[j].idx)
  {
    var (top, rest) := PopMin(s.pq);
    var u := top.idx;
    var s2 := s.(pq := rest, solveVisited := s.solveVisited[u := true]);
    var r := RelaxFrom(w, h, g, s2, u, 0);
    assert StepSearch(w, h, g, s).search == r;
    assert s2.dist == s.dist && s2.pq == rest;
    assert Requeued(|g|, s2, r);
    forall x | 0 <= x < |g| && s.solveVisited[x]
      ensures r.dist[x] == s.dist[x]
    {
      assert s.dist[x].n <= top.cost;
    }
  }

  /**
   * Settling and relaxing a current least entry other than the destination
   * keeps the optimality invariant.
   */
  lemma SettleOptimal(w: int, h: int, g: seq<Cell>, s: Solver)
    requires Shape(w, h, g) && Invariant(w, h, g, s) && Optimal(w, h, g, s) && |s.pq| > 0
    requires !Stale(PopMin(s.pq).0, s.dist[PopMin(s.pq).0.idx])
    requires PopMin(s.pq).0.idx != Destination(w, h)
    ensures Optimal(w, h, g, StepSearch(w, h, g, s).search)
  {
    SettleEffect(w, h, g, s);
    SettleRelaxed(w, h, g, s);
    SettleQueued(w, h, g, s);
    SettleShortest(w, h, g, s);
  }

  lemma SettleRelaxed(w: int, h: int, g: seq<Cell>, s: Solver)
    requires Shape(w, h, g) && Invariant(w, h, g, s) && Optimal(w, h, g, s) && |s.pq| > 0
    requires !Stale(PopMin(s.pq).0, s.dist[PopMin(s.pq).0.idx])
    requires PopMin(s.pq).0.idx != Destination(w, h)
    ensures Relaxed(w, h, g, StepSearch(w, h, g, s).search, -1)
  {
    var r := StepSearch(w, h, g, s).search;
    var u := PopMin(s.pq).0.idx;
    SettleEffect(w, h, g, s);
    forall x, d: Dir | 0 <= x < |g| && r.solveVisited[x] && Opens(w, h, g, x, d)
      ensures AtMost(r.dist[Neighbor(w, h, x, d)], Succ(r.dist[x]))
    {
      if x != u {
        assert AtMost(s.dist[Neighbor(w, h, x, d)], Succ(s.dist[x]));
      }
    }
  }

  lemma SettleQueued(w: int, h: int, g: seq<Cell>, s: Solver)
    requires Shape(w, h, g) && Invariant(w, h, g, s) && Optimal(w, h, g, s) && |s.pq| > 0
    requires !Stale(PopMin(s.pq).0, s.dist[PopMin(s.pq).0.idx])
    requires PopMin(s.pq).0.idx != Destination(w, h)
    ensures Queued(StepSearch(w, h, g, s).search)
  {
    var r := StepSearch(w, h, g, s).search;
    SettleEffect(w, h, g, s);
    RequeueQueued(s, r);
  }

  /**
   * Popping the least entry, marking its cell settled and requeueing the
   * improved cells leaves every unsettled reached cell queued.
   */
  lemma {:induction false} RequeueQueued(s: Solver, r: Solver)
    requires |s.solveVisited| == |s.dist| == |r.solveVisited| == |r.dist| && |s.pq| > 0
    requires Queued(s) && PopMin(s.pq).0.idx < |s.dist|
    requires r.solveVisited == s.solveVisited[PopMin(s.pq).0.idx := true]
    requires Requeued(|s.dist|, s.(pq := PopMin(s.pq).1), r)
    ensures Queued(r)
  {
    var rest := PopMin(s.pq).1;
    RequeuedMembers(|s.dist|, s.(pq := rest), r);
    forall y | 0 <= y < |r.dist| && !r.solveVisited[y] && r.dist[y].Fin?
      ensures Entry(r.dist[y].n, y) in r.pq
    {
      if r.dist[y] == s.dist[y] {
        StillQueued(s.pq, Entry(s.dist[y].n, y));
      }
    }
  }

  lemma SettleShortest(w: int, h: int, g: seq<Cell>, s: Solver)
    requires Shape(w, h, g) && Invariant(w, h, g, s) && Optimal(w, h, g, s) && |s.pq| > 0
    requires !Stale(PopMin(s.pq).0, s.dist[PopMin(s.pq).0.idx])
    requires PopMin(s.pq).0.idx != Destination(w, h)
    ensures SettledShortest(w, h, g, StepSearch(w, h, g, s).search)
  {
    var r := StepSearch(w, h, g, s).search;
    var u := PopMin(s.pq).0.idx;
    SettleEffect(w, h, g, s);
    forall x, p | 0 <= x < |g| && r.solveVisited[x] && WalkTo(w, h, g, p, x)
      ensures r.dist[x].Fin? && r.dist[x].n < |p|
    {
      if x == u {
        PopIsShortest(w, h, g, s, p);
      }
    }
  }

  /**
   * With an empty queue every reached cell is settled, so a walk from the
   * origin settles cell after cell along its passages up to its last cell.
   */
  lemma WalkSettled(w: int, h: int, g: seq<Cell>, s: Solver, p: seq<int>, x: int)
    requires Shape(w, h, g) && Invariant(w, h, g, s) && Relaxed(w, h, g, s, -1) && Queued(s)
    requires |s.pq| == 0 && 0 <= x < |g| && WalkTo(w, h, g, p, x)
    ensures s.solveVisited[x]
  {
    WalkInRange(w, h, g, p, x);
    assert forall y | 0 <= y < |g| && s.dist[y].Fin? :: s.solveVisited[y];
    var k := 0;
    while k < |p| - 1
      invariant 0 <= k < |p| && s.solveVisited[p[k]]
    {
      assert Linked(w, h, g, p[k], p[k + 1]);
      var d: Dir :| Opens(w, h, g, p[k], d) && Neighbor(w, h, p[k], d) == p[k + 1];
      assert AtMost(s.dist[p[k + 1]], Succ(s.dist[p[k]]));
      k := k + 1;
    }
  }

  /**
   * A search whose queue runs empty before the destination is settled
   * leaves no walk from the origin to the destination.
   */
  lemma ExhaustedUnreachable(w: int, h: int, g: seq<Cell>, s: Solver)
    requires Shape(w, h, g) && Invariant(w, h, g, s) && Optimal(w, h, g, s) && |s.pq| == 0
    ensures forall p :: !WalkTo(w, h, g, p, Destination(w, h))
  {
    forall p | WalkTo(w, h, g, p, Destination(w, h))
      ensures false
    {
      WalkSettled(w, h, g, s, p, Destination(w, h));
    }
  }

  /**
   * Every solver step that does not end the search keeps the optimality
   * invariant; a step that ends it by settling the destination has found
   * a distance no longer than any walk to the destination, and one that
   * ends it on an empty queue leaves no walk to the destination at all.
   */
  lemma StepOptimal(w: int, h: int, g: seq<Cell>, s: Solver)
    requires Shape(w, h, g) && Invariant(w, h, g, s) && Optimal(w, h, g, s)
    ensures !StepSearch(w, h, g, s).solved ==> Optimal(w, h, g, StepSearch(w, h, g, s).search)
    ensures StepSearch(w, h, g, s).solved && |s.pq| > 0 ==>
      forall p | WalkTo(w, h, g, p, Destination(w, h)) ::
        StepSearch(w, h, g, s).search.dist[Destination(w, h)].n < |p|
    ensures |s.pq| == 0 ==> forall p :: !WalkTo(w, h, g, p, Destination(w, h))
  {
    if |s.pq| == 0 {
      ExhaustedUnreachable(w, h, g, s);
    } else {
      var top := PopMin(s.pq).0;
      if Stale(top, s.dist[top.idx]) {
        StaleOptimal(w, h, g, s);
      } else if top.idx == Destination(w, h) {
        forall p | WalkTo(w, h, g, p, Destination(w, h))
          ensures StepSearch(w, h, g, s).search.dist[Destination(w, h)].n < |p|
        {
          DestinationShortest(w, h, g, s, p);
        }
      } else {
        SettleOptimal(w, h, g, s);
      }
    }
  }
}

=== FILE: spanning.dfy ===
/**
 * Tree structure of the passage graph. A depth labelling in which every
 * passage joins cells whose depths differ by one, and every visited cell
 * other than the origin has exactly one shallower neighbour through an
 * open wall, witnesses that the passages form a tree rooted at cell 0.
 */
module Spanning {
  import opened Grid

  /** Every cell that has not been visited still has all four walls closed. */
  predicate Sealed(g: seq<Cell>) {
    forall i | 0 <= i < |g| && !g[i].visited :: g[i].walls == Closed
  }

  /** Direction `d` leads from cell `i` to its parent in the depth labelling. */
  predicate IsParentDir(w: int, h: int, g: seq<Cell>, depth: seq<nat>, i: int, d: Dir)
    requires Shape(w, h, g) && |depth| == |g| && 0 <= i < |g|
  {
    Opens(w, h, g, i, d) && depth[Neighbor(w, h, i, d)] + 1 == depth[i]
  }

  ghost predicate Tree(w: int, h: int, g: seq<Cell>, depth: seq<nat>)
    requires Shape(w, h, g)
  {
    && |depth| == |g|
    && depth[0] == 0
    && (forall i, d: Dir | 0 <= i < |g| && Opens(w, h, g, i, d) ::
          depth[Neighbor(w, h, i, d)] == depth[i] + 1 || depth[Neighbor(w, h, i, d)] + 1 == depth[i])
    && (forall i | 0 < i < |g| && g[i].visited :: exists d: Dir :: IsParentDir(w, h, g, depth, i, d))
    && (forall i, d1: Dir, d2: Dir | 0 <= i < |g| && IsParentDir(w, h, g, depth, i, d1) && IsParentDir(w, h, g, depth, i, d2) ::
          d1 == d2)
  }

  /** A position of `cyc` whose cell is deepest. */
  lemma {:induction false} Deepest(cyc: seq<int>, depth: seq<nat>) returns (m: int)
    requires |cyc| > 0 && forall k | 0 <= k < |cyc| :: 0 <= cyc[k] < |depth|
    ensures 0 <= m < |cyc|
    ensures forall k | 0 <= k < |cyc| :: depth[cyc[k]] <= depth[cyc[m]]
    decreases |cyc|
  {
    if |cyc| == 1 {
      m := 0;
    } else {
      var n := |cyc| - 1;
      m := Deepest(cyc[..n], depth);
      assert forall k | 0 <= k < n :: cyc[..n][k] == cyc[k];
      if depth[cyc[m]] < depth[cyc[n]] {
        m := n;
      }
    }
  }

  /** An open neighbour no deeper than cell `a` is its parent. */
  lemma ShallowerIsParent(w: int, h: int, g: seq<Cell>, depth: seq<nat>, a: int, d: Dir)
    requires Shape(w, h, g) && Tree(w, h, g, depth) && 0 <= a < |g|
    requires Opens(w, h, g, a, d) && depth[Neighbor(w, h, a, d)] <= depth[a]
    ensures IsParentDir(w, h, g, depth, a, d)
  {
  }

  /** The cells of a closed walk all lie on the grid. */
  lemma ClosedWalkInRange(w: int, h: int, g: seq<Cell>, cyc: seq<int>)
    requires Shape(w, h, g) && IsClosedWalk(w, h, g, cyc)
    ensures forall k | 0 <= k < |cyc| :: 0 <= cyc[k] < |g|
  {
    forall k | 0 <= k < |cyc|
      ensures 0 <= cyc[k] < |g|
    {
      assert Linked(w, h, g, cyc[k], CycleNext(cyc, k));
    }
  }

  /**
   * On a depth-labelled grid every closed walk of three or more steps
   * revisits a cell: the two walk-neighbours of its deepest cell would
   * both be that cell's parent, so they coincide.
   */
  lemma ClosedWalkRepeats(w: int, h: int, g: seq<Cell>, depth: seq<nat>, cyc: seq<int>)
    requires Shape(w, h, g) && Symmetric(w, h, g) && Tree(w, h, g, depth)
    requires |cyc| >= 3 && IsClosedWalk(w, h, g, cyc)
    ensures !Distinct(cyc)
  {
    var L := |cyc|;
    ClosedWalkInRange(w, h, g, cyc);
    var m := Deepest(cyc, depth);
    var prev := if m == 0 then L - 1 else m - 1;
    var next := if m == L - 1 then 0 else m + 1;
    var a := cyc[m];
    assert CycleNext(cyc, prev) == a;
    assert CycleNext(cyc, m) == cyc[next];
    assert Linked(w, h, g, cyc[prev], a);
    assert Linked(w, h, g, a, cyc[next]);
    LinkedBack(w, h, g, cyc[prev], a);
    var d1: Dir :| Opens(w, h, g, a, d1) && Neighbor(w, h, a, d1) == cyc[prev];
    var d2: Dir :| Opens(w, h, g, a, d2) && Neighbor(w, h, a, d2) == cyc[next];
    ShallowerIsParent(w, h, g, depth, a, d1);
    ShallowerIsParent(w, h, g, depth, a, d2);
    assert cyc[prev] == cyc[next] && prev != next;
  }

  lemma TreeAcyclic(w: int, h: int, g: seq<Cell>, depth: seq<nat>)
    requires Shape(w, h, g) && Symmetric(w, h, g) && Tree(w, h, g, depth)
    ensures Acyclic(w, h, g)
  {
    forall cyc | |cyc| >= 3 && IsClosedWalk(w, h, g, cyc)
      ensures !Distinct(cyc)
    {
      ClosedWalkRepeats(w, h, g, depth, cyc);
    }
  }

  /** Following parents from a visited cell walks to the origin. */
  lemma {:induction false} TreeReaches(w: int, h: int, g: seq<Cell>, depth: seq<nat>, a: int)
    requires Shape(w, h, g) && Symmetric(w, h, g) && Sealed(g) && Tree(w, h, g, depth)
    requires 0 <= a < |g| && g[a].visited
    ensures Reaches(w, h, g, a)
    decreases depth[a]
  {
    if a == 0 {
      assert IsWalk(w, h, g, [0]);
    } else {
      var d: Dir :| IsParentDir(w, h, g, depth, a, d);
      var p := Neighbor(w, h, a, d);
      assert g[p].walls[Opposite(d)] == g[a].walls[d];
      assert g[p].visited;
      TreeReaches(w, h, g, depth, p);
      var walk: seq<int> :| |walk| > 0 && walk[0] == p && walk[|walk| - 1] == 0 && IsWalk(w, h, g, walk);
      var walk' := [a] + walk;
      forall k | 0 <= k < |walk'| - 1
        ensures Linked(w, h, g, walk'[k], walk'[k + 1])
      {
        if k == 0 {
          assert Opens(w, h, g, a, d) && Neighbor(w, h, a, d) == walk'[1];
        } else {
          assert walk'[k] == walk[k - 1] && walk'[k + 1] == walk[k];
        }
      }
      assert walk'[|walk'| - 1] == 0;
    }
  }

  /** A fully visited, depth-labelled grid is connected and acyclic. */
  lemma TreeSpans(w: int, h: int, g: seq<Cell>, depth: seq<nat>)
    requires Shape(w, h, g) && Symmetric(w, h, g) && Sealed(g) && Tree(w, h, g, depth)
    requires forall i | 0 <= i < |g| :: g[i].visited
    ensures Connected(w, h, g) && Acyclic(w, h, g)
  {
    forall c | 0 <= c < |g|
      ensures Reaches(w, h, g, c)
    {
      TreeReaches(w, h, g, depth, c);
    }
    TreeAcyclic(w, h, g, depth);
  }
}
